=== FILE: README.md ===
# Subnoto embedded-signing demo: a Dafny model of its logic

The demo is a small web front end around Subnoto's e-signature SDK. The model covers the logic that lives in the repository itself, not in the SDK:

- **The configuration gate.** Every server action first reads four mandatory environment variables.
- **The request sequences of the server actions.**
  - `createEnvelopeFromBuffer`: upload, add the recipient, add the signature block, send.
  - `createEnvelopeAndEmbed`, in its current form and in the older self-contained copy, which adds the iframe-token step.
  - `createEnvelopeFromDevisPdf`: create from file with Smart Anchor detection, send, token.
  - The `runMassUpload` batch loop.
  - The single-call wrappers `getWhoami`, `getOwnerEmail`, `getEnvelopeStatus` and `getIframeUrlForEnvelope`.
- **The shared error handling.** The error-message normalisation that every action repeats, and `formatEnvelopeError`.
- **The saved-envelope ledger in browser storage.** Loading it with a per-record filter, and the upsert `saveEnvelope`.
- **The create-and-sign page logic.** The status lookup that lists unsigned envelopes, and the list update after a create.
- **Quote ("devis") logic.**
  - The totals.
  - The form updaters `setField`, `setLineItem`, `addLineItem` and `removeLineItem`.
  - The sample line items of `dummyFormData`.
  - The Smart Anchor text in the quote PDF.
  - What the quote page does after sending.
- **Helpers.** `truncateUuid` and `buildEmbedSignUrl`.

The vendor SDK is not modelled; it is treated as an oracle. Each remote call becomes a parameter of type `Call<T>`: either `Threw(exception)` or `Returned({ data, error })`. Every action returns the trace of requests it made, so the traces can state:

- step order;
- short-circuiting on the first failure;
- the order of the pre-flight checks;
- that a batch never stops early.

Other inputs:

- **Browser storage:** a `Stored` value (absent, empty text, unparseable, or a parsed JSON value).
- **`Date.now()`:** an integer parameter.
- **`Math.random()`:** sequences of draws in [0, 1).
- **The existence of the sample PDF:** a boolean.

Modules:

| module | source |
|---|---|
| `Values` | shared helpers: Option/Result, string tests, decimal `String(n)` |
| `Vendor` | shared vendor-call vocabulary and error normalisation |
| `SubnotoClient` | `src/lib/subnoto-client.ts` |
| `EmbedUrl` | `src/lib/embed-url.ts` |
| `Uuid` | `src/lib/uuid.ts` |
| `FormatError` | `src/lib/format-error.ts` |
| `StorageEnvelopes` | `src/lib/storage-envelopes.ts` |
| `Whoami` | `src/actions/whoami.ts` |
| `EnvelopeStatus` | `src/actions/envelope-status.ts` |
| `IframeToken` | `src/actions/iframe-token.ts` |
| `CreateOneEnvelope` | `src/actions/create-one-envelope.ts` |
| `CreateEnvelopeAndEmbed` | `src/actions/create-envelope-and-embed.ts` |
| `CreateDevisEnvelope` | `src/actions/create-devis-envelope.ts` |
| `MassUpload` | `src/actions/mass-upload.ts` |
| `CreateAndSign` | `src/components/create-and-sign.tsx` |
| `DevisTypes` | `src/components/devis-types.ts` |
| `DevisPdfDocument` | `src/components/devis-pdf-document.tsx` |
| `DevisDemo` | `src/components/devis-demo.tsx` |

Code that changes state in place is imperative Dafny, and each such method is proved against a specification function:

- `BrowserStorage.SaveEnvelope` against `AfterSave`/`Upsert`.
- The action step sequences against `BufferRun`, `EmbedOutcome` and `DevisOutcome`.
- The mass-upload loop against `BatchItems`/`BatchCalls`.
- The status loop against `UnsignedItems`.
- The `dummyFormData` loop against `DummyLines`.
- The page handlers against the page classes' fields.

Pure code is functions and lemmas.

Three behaviours of the code are worth stating, because a reader might expect stricter checks:

- **Ledger load.** A record without a string `envelopeUuid` or a numeric `createdAt` is dropped on its own, and the rest of the list still loads (`src/lib/storage-envelopes.ts:16-22`, `StorageEnvelopes.DropsMalformedAlone`).
- **Upload result.** `createEnvelopeFromBuffer` destructures the upload's result without checking it (`src/actions/create-one-envelope.ts:25`), so the identifiers pass through.
- **Envelope status.** The reported status is cast, not checked, against the seven documented values (`src/actions/envelope-status.ts:27`).

## Model

| member | source | states |
|---|---|---|
| SubnotoClient.GetClientAndWorkspace | src/lib/subnoto-client.ts:6-29 | fails with the fixed "Missing env" message exactly when one of the four variables is absent or empty; on success the base URL, workspace and keys are the variables' values and `unattested` holds exactly when the variable is the string "true" |
| SubnotoClient.MissingOneVariableFails | src/lib/subnoto-client.ts:17-21 | removing or emptying any one mandatory variable makes the gate fail, whatever the others hold |
| EmbedUrl.EmbedBaseUrl | src/lib/embed-url.ts:1 | the embed host is the override when the variable is set (even to ""), else "https://app.subnoto.com" |
| EmbedUrl.BuildEmbedSignUrl | src/lib/embed-url.ts:4-6 | the URL is host, "/embeds/sign", "#t=", token |
| EmbedUrl.TokenRoundTrip | src/lib/embed-url.ts:5 | the token is exactly what follows the fixed prefix, so it can be read back |
| EmbedUrl.TokenIsFragmentSuffix | src/lib/embed-url.ts:5 | the URL ends with the token and the three characters before it are the `#t=` marker |
| EmbedUrl.BuildEmbedSignUrlInjective | src/lib/embed-url.ts:5 | for one host, distinct tokens give distinct URLs |
| Uuid.TruncateUuid | src/lib/uuid.ts:1-4 | short identifiers come back whole; longer ones become their first `length` characters plus one ellipsis character; the result is at most `length + 1` long; `length` defaults to 12 |
| Uuid.TruncateKeepsPrefix | src/lib/uuid.ts:2-3 | the result starts with the first min(uuid length, length) characters of the input |
| Uuid.TruncateIdempotent | src/lib/uuid.ts:1-4 | truncating a truncated identifier changes nothing |
| Values.ContainsIff | src/lib/format-error.ts:7 | the scanning `includes` agrees with "occurs at some position" |
| Values.ContainsIgnoringCase | src/lib/format-error.ts:5 | `/no session id/i` matches exactly when the pattern occurs at some position of the message with its upper-case ASCII letters lowered |
| Values.ContainsIgnoringCaseIgnoresCase | src/lib/format-error.ts:5 | a message and its lower-cased form match alike |
| Values.DecimalRoundTrip | src/components/devis-demo.tsx:191 | `String(n)` is a non-empty digit string that reads back as `n` |
| Values.DecimalStringInjective | src/components/devis-demo.tsx:191 | distinct numbers give distinct id strings |
| Vendor.ErrorMessage | src/actions/envelope-status.ts:17-25 | the shared normalisation: an absent error gives the step's text; a primitive gives `String(error)`; an object gives its nested message, else its own message, else the fallback |
| Vendor.ThrownMessage | src/actions/envelope-status.ts:28-33 | an `Error` yields its message, anything else the fallback |
| FormatError.HandshakeHint | src/lib/format-error.ts:6-9 | the hint is non-empty exactly when the base URL starts with "http://" and contains "enclave.subnoto.com" |
| FormatError.FormatEnvelopeError | src/lib/format-error.ts:3-23 | all five cases: a vendor error saying "no session id" (any case) gets the handshake text and hint; any other vendor error its message; a plain error with "fetch failed" or cause code ECONNREFUSED the unreachable text naming the base URL; any other plain error its message; a non-error the fixed text. The vendor test comes first |
| FormatError.HandshakeMessageKeepsCause | src/lib/format-error.ts:5-10 | the rewritten handshake message starts with the handshake prefix and still reads as a handshake failure |
| FormatError.UnreachableMessageNamesBaseUrl | src/lib/format-error.ts:17-18 | the unreachable message contains the base URL it tried |
| StorageEnvelopes.KeepSaved | src/lib/storage-envelopes.ts:16-22 | the filter keeps only well-formed records and never grows the list |
| StorageEnvelopes.LoadSavedEnvelopes | src/lib/storage-envelopes.ts:9-26 | outside the browser, with no entry, empty text, unparseable text or a non-array, the load is empty; for an array it holds exactly the elements `IsSavedEnvelope` accepts |
| StorageEnvelopes.KeepSavedMembers | src/lib/storage-envelopes.ts:16-22 | a value is kept exactly when it is in the input and `IsSavedEnvelope` accepts it |
| StorageEnvelopes.IsSavedEnvelope | src/lib/storage-envelopes.ts:17-21 | defines the record filter: an object whose `envelopeUuid` is a string and whose `createdAt` is a number (no contract of its own; `SignerEmailNotChecked` states what it ignores) |
| StorageEnvelopes.SignerEmailNotChecked | src/lib/storage-envelopes.ts:17-21 | the filter never consults `signerEmail`: overwriting or adding it leaves a record's verdict unchanged |
| StorageEnvelopes.KeepSavedAppend | src/lib/storage-envelopes.ts:16-22 | the filter works piecewise, so the kept records stay in their original order |
| StorageEnvelopes.DropsMalformedAlone | src/lib/storage-envelopes.ts:16-22 | a malformed record is dropped on its own; the records around it stay |
| StorageEnvelopes.KeepSavedValid | src/lib/storage-envelopes.ts:16-22 | a list of well-formed records passes the filter unchanged |
| StorageEnvelopes.LoadAfterWrite | src/lib/storage-envelopes.ts:9-26 | what a save writes is what the next load returns |
| StorageEnvelopes.FindFirst | src/lib/storage-envelopes.ts:30 | `find` returns the first index whose uuid matches, or none when no record matches |
| StorageEnvelopes.NewRecord | src/lib/storage-envelopes.ts:38 | the pushed record is well formed and carries the uuid and the time; it has a `signerEmail` field exactly when one was given, because `JSON.stringify` drops an undefined one |
| StorageEnvelopes.WithSignerEmail | src/lib/storage-envelopes.ts:33 | the found record gains or replaces `signerEmail` and keeps every other field |
| StorageEnvelopes.Upsert | src/lib/storage-envelopes.ts:28-40 | nothing is written exactly when the uuid is known and no e-mail is given |
| StorageEnvelopes.SaveUnknownAppends | src/lib/storage-envelopes.ts:38-39 | an unknown uuid appends one record with that uuid, e-mail and time; the earlier records are unchanged |
| StorageEnvelopes.SaveKnownUpdatesEmail | src/lib/storage-envelopes.ts:30-35 | a known uuid with an e-mail changes only that record's `signerEmail`: length, order, the other records and the record's other fields are kept |
| StorageEnvelopes.SaveKnownWithoutEmailSkipsWrite | src/lib/storage-envelopes.ts:31-36 | a known uuid without an e-mail writes nothing |
| StorageEnvelopes.UpsertWritesValid | src/lib/storage-envelopes.ts:29-39 | whatever is written holds only well-formed records, and the saved uuid is on it |
| StorageEnvelopes.UpsertKeepsDistinct | src/lib/storage-envelopes.ts:30-39 | a list with distinct uuids still has distinct uuids after the save |
| StorageEnvelopes.SaveAgainKeepsOneRecord | src/lib/storage-envelopes.ts:28-40 | two saves of one uuid on a ledger without duplicates leave exactly one record with that uuid and no longer a list; a second save with an e-mail leaves that e-mail on the record, one without an e-mail writes nothing |
| StorageEnvelopes.AfterSave | src/lib/storage-envelopes.ts:28-40 | a changed storage entry is always an array of well-formed records; a save with an e-mail always writes |
| StorageEnvelopes.BrowserStorage.SaveEnvelope | src/lib/storage-envelopes.ts:28-40 | the entry is rewritten with the upserted list, or left alone when the upsert writes nothing; a rewritten entry holds only well-formed records |
| Whoami.GetWhoami | src/actions/whoami.ts:16-48 | the gate's error comes first; success needs a returned call with no truthy error and data, and then copies the five fields with the configured base URL; a throw gives its message or "Failed to get environment info"; an error value goes through the normalisation with "Failed to get whoami" |
| Whoami.GetOwnerEmail | src/actions/whoami.ts:51-55 | the whoami error propagates unchanged; otherwise the owner's e-mail |
| Whoami.WhoamiIgnoresCallWithoutConfig | src/actions/whoami.ts:17-18 | without configuration the result does not depend on the call, which is never made |
| Whoami.OwnerEmailFromResponse | src/actions/whoami.ts:51-55 | a successful lookup returns exactly the `ownerEmail` the vendor reported |
| EnvelopeStatus.GetEnvelopeStatus | src/actions/envelope-status.ts:9-34 | the gate first; success exactly for a returned call with no truthy error and a non-empty status, which is returned unchanged; a null error with no status gives "Envelope not found"; a throw gives its message or "Failed to get envelope status" |
| EnvelopeStatus.StatusIgnoresCallWithoutConfig | src/actions/envelope-status.ts:10-11 | without configuration the reply is irrelevant |
| EnvelopeStatus.StatusIsCastNotChecked | src/actions/envelope-status.ts:27 | any non-empty reported status comes back unchanged, including one outside the seven documented values |
| EnvelopeStatus.UndocumentedStatusReported | src/actions/envelope-status.ts:27 | the undocumented status "archived" is reported as it is |
| IframeToken.GetIframeUrlForEnvelope | src/actions/iframe-token.ts:9-51 | the gate first; the owner is looked up only for an undefined or empty e-mail, and its error propagates; the token request names the chosen e-mail; a token failure gives the normalised message; a throw gives its message or "Failed to get signing link"; success gives `buildEmbedSignUrl(token)` |
| CreateOneEnvelope.CatchBaseUrl | src/actions/create-one-envelope.ts:105-106 | the `catch` reports the configured base URL, or "" when the gate fails |
| CreateOneEnvelope.BufferRun | src/actions/create-one-envelope.ts:24-111 | the steps run upload, recipients, blocks, send; a failure at one step stops the rest; success returns the upload's identifiers after four requests; each failure's message is the formatted throw or the normalised error with that step's fallback |
| CreateOneEnvelope.CreateEnvelopeFromBuffer | src/actions/create-one-envelope.ts:17-111 | the method's result and request trace are those of `BufferRun` with the "Demo Signer" recipient, page "1" at (100, 400), and distribution "none" |
| CreateOneEnvelope.StepError | src/actions/create-one-envelope.ts:48-100 | defines the message of a failed step (no contract of its own): a thrown call goes through `formatEnvelopeError` with the catch block's base URL; an error value gives its `error.message`, else its `message`, else the step's fallback text |
| CreateOneEnvelope.EmbedOutcome | src/actions/create-one-envelope.ts:117-167 | the promise rejects only with the token call's own exception; success needs configuration, an owner and the PDF, and gives the created envelope's uuid, `buildEmbedSignUrl` of the issued token and the owner as signer |
| CreateOneEnvelope.CreateEnvelopeAndEmbed | src/actions/create-one-envelope.ts:117-167 | configuration, then owner e-mail, then the PDF are checked before any creation request; the creation failure propagates; the token request names the owner; a token throw rejects the promise; success gives the uuid, the built URL and the signer |
| CreateEnvelopeAndEmbed.GetIframeUrlForEnvelope | src/actions/create-envelope-and-embed.ts:77-113 | as the shared one, except that only an undefined e-mail triggers the owner lookup; an empty one is sent as it is |
| CreateEnvelopeAndEmbed.CreationSteps | src/actions/create-envelope-and-embed.ts:143-223 | steps 1 to 4 of the older copy behave as the shared four-step sequence, with the title "Mass upload signing" and the recipient "Corentin Subnoto" |
| CreateEnvelopeAndEmbed.CreateEnvelopeAndEmbed | src/actions/create-envelope-and-embed.ts:117-254 | the same pre-flight order; five steps short-circuit on the first failure; a token throw is caught and formatted rather than rejected |
| CreateDevisEnvelope.DevisOutcome | src/actions/create-devis-envelope.ts:16-114 | the action succeeds exactly when configuration, owner, decoding, creation, sending and the token all succeed, and then gives the created uuid, the token and the embed host |
| CreateDevisEnvelope.EnvelopeCreated | src/actions/create-devis-envelope.ts:62-69 | defines when creation counts as successful (no contract of its own): the call returned, with no truthy error, and with data carrying a non-empty envelope uuid and document uuid; `DevisOutcome` states its role |
| CreateDevisEnvelope.CreateEnvelopeFromDevisPdf | src/actions/create-devis-envelope.ts:16-114 | config and owner errors come before decoding; an undecodable PDF gives "Invalid PDF data"; the requests are create-from-file (with `detectSmartAnchors` "true"), send ("none"), token, and never add-blocks or upload; the create step fails on an error or a missing id; success gives the raw token and the embed host |
| MassUpload.PickIndexInRange | src/actions/mass-upload.ts:18 | a draw in [0, 1) picks a valid index |
| MassUpload.PickIndex | src/actions/mass-upload.ts:18 | `Math.floor(Math.random() * length)` for a draw in [0, 1): always an index below `length` |
| MassUpload.ChosenParts | src/actions/mass-upload.ts:18 | one part is chosen from each of the four lists, in order |
| MassUpload.JoinFour | src/actions/mass-upload.ts:19 | joining four parts puts one separator between neighbours |
| MassUpload.RandomProTitle | src/actions/mass-upload.ts:17-20 | the title is the four chosen parts in list order with one space between neighbours |
| MassUpload.TitleShape | src/actions/mass-upload.ts:10-20 | a title is one entry of each list, in list order, separated by single spaces |
| MassUpload.ItemOf | src/actions/mass-upload.ts:48-56 | an item is an error exactly when its creation failed, with that error; otherwise the created ids and that iteration's title |
| MassUpload.BatchCallsCoverEveryItem | src/actions/mass-upload.ts:45-60 | a batch of n makes between n and 4n requests: every iteration issues its own upload |
| MassUpload.UploadOne | src/actions/mass-upload.ts:46-56 | one iteration records the item and requests of its own four-step run under its own title |
| MassUpload.BatchItems | src/actions/mass-upload.ts:45-62 | a batch of n iterations records exactly n items |
| MassUpload.BatchItemsAt | src/actions/mass-upload.ts:45-56 | item i is the outcome of iteration i, whatever the other iterations did |
| MassUpload.Iterations | src/actions/mass-upload.ts:45 | the iteration count of `for (let i = 0; i < count; i++)` is the least natural not below `count`: the ceiling of a positive count, 0 otherwise |
| MassUpload.IterationsIff | src/actions/mass-upload.ts:45 | iteration `i` runs exactly when `i < count` |
| MassUpload.IterationsLeast | src/actions/mass-upload.ts:45 | the two bounds determine the count uniquely |
| MassUpload.IterationsExamples | src/actions/mass-upload.ts:45 | counts 3 and 2.5 both run three iterations; 0 and -1.5 run none |
| MassUpload.UploadEach | src/actions/mass-upload.ts:45-60 | for any numeric count, the loop records `BatchItems` for ⌈count⌉ iterations (none for count ≤ 0), pauses only between items (one fewer pause than items, as `i < count - 1` gives), and issues the iterations' requests in order |
| MassUpload.RunMassUpload | src/actions/mass-upload.ts:26-63 | configuration, then the PDF, then the owner are checked before any upload; then every iteration runs, and the result holds one item per iteration, ⌈count⌉ items for a positive count |
| CreateAndSign.SignerEmailField | src/components/create-and-sign.tsx:42 | the item's `signerEmail` is present exactly when the record defines it, with the record's value |
| CreateAndSign.ItemForMeaning | src/components/create-and-sign.tsx:37-44 | a record yields at most one item; it yields one exactly when its lookup succeeds with an unsigned status, and that item carries the record's uuid, the status and its `signerEmail` when defined |
| CreateAndSign.ItemFor | src/components/create-and-sign.tsx:37-44 | defines one record's contribution (no contract of its own): the status lookup, then one item when it succeeds with an unsigned status, none otherwise; `ItemForMeaning` states what it yields |
| CreateAndSign.UnsignedItemsAppend | src/components/create-and-sign.tsx:35-45 | the list is built in ledger order: the items of a longer ledger are those of its first part followed by those of the rest |
| CreateAndSign.UnsignedItemsMembers | src/components/create-and-sign.tsx:35-45 | an item is listed exactly when some record produced it |
| CreateAndSign.UnsignedItems | src/components/create-and-sign.tsx:35-45 | defines the list as the records' contributions concatenated in ledger order (no contract of its own); `UnsignedItemsMembers` states its members |
| CreateAndSign.UnsignedItemsAreUnsigned | src/components/create-and-sign.tsx:12 | every listed envelope is draft, uploading, approving or signing |
| CreateAndSign.UnconfiguredListsNothing | src/components/create-and-sign.tsx:37-39 | failed lookups are skipped, so without configuration nothing is listed |
| CreateAndSign.LookUpOne | src/components/create-and-sign.tsx:36-44 | one pass looks up the record's own uuid and contributes what `ItemFor` says |
| CreateAndSign.LookUpEach | src/components/create-and-sign.tsx:35-45 | the loop builds exactly `UnsignedItems` and looks up every record once, in ledger order |
| CreateAndSign.CollectUnsigned | src/components/create-and-sign.tsx:25-50 | `hasSaved` is whether the ledger is non-empty; an empty ledger makes no lookup; otherwise one lookup per record, and the unsigned list |
| CreateAndSign.WithoutUuid | src/components/create-and-sign.tsx:69 | the filter never grows the list and leaves no entry with that uuid |
| CreateAndSign.WithoutUuidMembers | src/components/create-and-sign.tsx:69 | an entry is kept exactly when it is listed and has another uuid |
| CreateAndSign.WithoutUuidAppend | src/components/create-and-sign.tsx:69 | the filter keeps the order of what it keeps |
| CreateAndSign.AfterCreate | src/components/create-and-sign.tsx:68-71 | after a create the list holds the previous entries for other uuids, then one entry for the new uuid with status "signing" |
| CreateAndSign.WithoutUuidKeepsDistinct | src/components/create-and-sign.tsx:69 | filtering keeps uuids distinct |
| CreateAndSign.AfterCreateKeepsDistinct | src/components/create-and-sign.tsx:68-71 | creating never duplicates an entry |
| CreateAndSign.CreateAndSignPage.constructor | src/components/create-and-sign.tsx:15-20 | the page starts with no URL, envelope or error |
| CreateAndSign.CreateAndSignPage.HandleCreate | src/components/create-and-sign.tsx:56-75 | the error is cleared first; an action error is shown and nothing else changes; on success the ledger save receives the new uuid and the returned signer, the URL and envelope are set, and the list is updated by `AfterCreate`; a rejected action changes nothing else |
| DevisTypes.ComputeDevisTotals | src/components/devis-types.ts:21-30 | total = subtotal × (1 + rate / 100); an empty quote totals zero |
| DevisTypes.SumAppend | src/components/devis-types.ts:26 | the `reduce` fold splits over concatenation |
| DevisTypes.SumFoldsAgree | src/components/devis-types.ts:26 | the left fold equals the sum taken from the front |
| DevisTypes.TotalsFromAmounts | src/components/devis-types.ts:26-28 | subtotal is the sum of the amounts, tax is subtotal × rate / 100, total is subtotal + tax |
| DevisTypes.ZeroRateTotalIsSubtotal | src/components/devis-types.ts:27-28 | at a rate of zero the total is the subtotal |
| DevisTypes.SumNonNegative | src/components/devis-types.ts:26 | non-negative amounts have a non-negative sum |
| DevisTypes.TotalsOrdered | src/components/devis-types.ts:26-28 | with non-negative amounts and rate, 0 ≤ subtotal ≤ total |
| DevisTypes.SumUpdate | src/components/devis-types.ts:26 | replacing one line moves the sum by the difference of the amounts |
| DevisTypes.SumRemove | src/components/devis-types.ts:26 | removing one line lowers the sum by its amount |
| DevisPdfDocument.GetSmartAnchor | src/components/devis-pdf-document.tsx:13-15 | the anchor is "{{ ", the e-mail verbatim, then " \| signature \| 180 \| 60 }}" |
| DevisPdfDocument.AnchorRoundTrip | src/components/devis-pdf-document.tsx:14 | the e-mail can be read back out of the anchor |
| DevisPdfDocument.AnchorInjective | src/components/devis-pdf-document.tsx:14 | distinct e-mails give distinct anchors |
| DevisPdfDocument.FirstSeparatorFollowsEmail | src/components/devis-pdf-document.tsx:14 | for an address without spaces or bars, the first " \| " comes right after the e-mail |
| DevisPdfDocument.Rows | src/components/devis-pdf-document.tsx:139-148 | one table row per line item, showing that item |
| DevisPdfDocument.DevisDocument | src/components/devis-pdf-document.tsx:106-176 | the anchor names the form's signer; the client block is the name, then the company and the address each only when non-empty, then the e-mail; one table row per line item showing that item; the quote number and tax rate are the form's |
| DevisPdfDocument.DocumentIsConsistent | src/components/devis-pdf-document.tsx:107-172 | the printed subtotal is the sum of the printed amounts, the total applies the printed rate, and the anchor reads back as the signer |
| DevisPdfDocument.RowsShowAmounts | src/components/devis-pdf-document.tsx:139-148 | the amounts shown in the table sum to the items' sum |
| DevisDemo.Get | src/components/devis-demo.tsx:159-161 | a field's value has the field's declared type |
| DevisDemo.SetField | src/components/devis-demo.tsx:159-161 | without a form nothing happens; otherwise exactly the one field takes the value and every other field is kept |
| DevisDemo.FieldsDetermineForm | src/components/devis-demo.tsx:160 | two forms that agree on every field are equal |
| DevisDemo.SetFieldToCurrentValue | src/components/devis-demo.tsx:160 | setting a field to its current value changes nothing |
| DevisDemo.SetLineItem | src/components/devis-demo.tsx:163-181 | no form or an out-of-range index leaves the state alone; otherwise only that line changes, taking each given field and keeping the others, with amount = quantity × unit price (a given amount is ignored) |
| DevisDemo.SetLineItemSubtotal | src/components/devis-demo.tsx:169-178 | the subtotal moves by exactly the change in that line's amount |
| DevisDemo.BlankLine | src/components/devis-demo.tsx:190-196 | the added line is numbered as given, empty, quantity 1, price 0, amount 0 |
| DevisDemo.AddLineItemAsWritten | src/components/devis-demo.tsx:183-200 | as written: one blank line numbered one past the old length is appended; everything else is kept |
| DevisDemo.AddLineItemSubtotal | src/components/devis-demo.tsx:183-200 | adding a blank line, as written or as intended, leaves the subtotal unchanged on any form |
| DevisDemo.NumberedIdsDistinct | src/components/devis-demo.tsx:191 | lines numbered "1".."n" have distinct ids |
| DevisDemo.AddLineItemKeepsNumbering | src/components/devis-demo.tsx:186-197 | on a form still numbered "1".."n", adding a line keeps the numbering "1".."n+1" |
| DevisDemo.RemoveThenAddDuplicatesId | src/components/devis-demo.tsx:183-208 | as written: after removing any line but the last, adding a line gives it the id of the old last line, so two lines share an id |
| DevisDemo.MaxIdNumber | src/components/devis-demo.tsx:191 | no line's numeric id exceeds the computed maximum |
| DevisDemo.AddLineItem | src/components/devis-demo.tsx:183-200 | as intended: one blank line (description "", quantity 1, unit price 0, amount 0) is appended and everything else is kept; its id is one past the largest numeric id in use |
| DevisDemo.AddLineItemFreshId | src/components/devis-demo.tsx:191 | as intended, the new line's id differs from every id already on the form |
| DevisDemo.AddLineItemKeepsIdsDistinct | src/components/devis-demo.tsx:183-200 | as intended, adding a line keeps the ids distinct |
| DevisDemo.WithoutIndexDropsOne | src/components/devis-demo.tsx:205 | the filter drops exactly position `index` (nothing when it is out of range) and keeps the order of the rest |
| DevisDemo.WithoutIndex | src/components/devis-demo.tsx:205 | the filter never grows the list and keeps only lines it was given; `WithoutIndexDropsOne` states exactly which line goes |
| DevisDemo.RemoveLineItem | src/components/devis-demo.tsx:202-208 | a form with at most one line is left alone; otherwise exactly line `index` is dropped and every other field is kept |
| DevisDemo.RemoveKeepsOneLine | src/components/devis-demo.tsx:204 | a form with a line never loses its last line, and loses at most one per call |
| DevisDemo.RemoveLineItemSubtotal | src/components/devis-demo.tsx:205 | removing a line lowers the subtotal by that line's amount |
| DevisDemo.RemoveKeepsIdsDistinct | src/components/devis-demo.tsx:202-208 | removing a line keeps the remaining ids distinct |
| DevisDemo.SetLineItemKeepsIdsDistinct | src/components/devis-demo.tsx:163-181 | editing a line without giving an id keeps every id, so distinct ids stay distinct |
| DevisDemo.ApplyEditKeepsIdsDistinct | src/components/devis-demo.tsx:304-478 | each edit the page offers (text and tax inputs, a line's description, quantity or price, add, remove) keeps the form's ids distinct |
| DevisDemo.EditsKeepIdsDistinct | src/components/devis-demo.tsx:304-478 | any sequence of page edits from a form with distinct ids leaves a form with distinct ids |
| DevisDemo.ApplyEdit | src/components/devis-demo.tsx:304-478 | one page edit (text field, tax rate, a line's description, quantity or unit price, add, remove) maps a present form to a present form and leaves an absent one absent |
| DevisDemo.ApplyEdits | src/components/devis-demo.tsx:304-478 | a sequence of page edits, applied in order, keeps the form present exactly when it was present |
| DevisDemo.RandomIntInRange | src/components/devis-demo.tsx:14-16 | a draw in [0, 1) gives an integer in [min, max] |
| DevisDemo.CatalogueDescriptionsDistinct | src/components/devis-demo.tsx:62-68 | the five catalogue entries have distinct descriptions |
| DevisDemo.DummyLineItems | src/components/devis-demo.tsx:69-87 | the loop's result is the sample line items that DummyLines specifies for the same draws |
| DevisDemo.DummyFrom | src/components/devis-demo.tsx:69-87 | defines the loop from a given state (no contract of its own): a draw picks a catalogue index, a used index is skipped, an unused one adds a line numbered by position with a quantity in 1..3 and a price in the entry's range; `DummyFromShape` states the result |
| DevisDemo.DummyLines | src/components/devis-demo.tsx:69-87 | defines the sample lines: the first draw fixes a count of 2..4, then the loop runs from an empty list (no contract of its own); `DummyLinesShape` and `DummyLinesIdsDistinct` state the result |
| DevisDemo.DummyFromShape | src/components/devis-demo.tsx:71-86 | every loop step keeps the lines numbered in order and drawn from distinct catalogue entries, so a finished loop holds exactly `count` lines |
| DevisDemo.DummyLinesShape | src/components/devis-demo.tsx:69-87 | 2 to 4 lines, numbered "1".."n", each from a distinct catalogue entry (so no description repeats), with the entry's description, a price in its range, quantity 1 to 3 and amount = quantity × price |
| DevisDemo.DummyLinesIdsDistinct | src/components/devis-demo.tsx:80-81 | the sample lines are numbered "1".."n", so their ids are distinct |
| DevisDemo.Property | src/actions/create-devis-envelope.ts:8-10 | the devis action's result has exactly the properties `envelopeUuid`, `iframeToken` and `host` |
| DevisDemo.IframeUrlIsNeverReturned | src/components/devis-demo.tsx:237 | reading `iframeUrl` from that result always yields undefined |
| DevisDemo.SigningUrlCarriesToken | src/actions/create-devis-envelope.ts:107-108 | the signing URL built from the returned host carries the returned token after `#t=` |
| DevisDemo.SigningUrlMatchesEmbedUrl | src/lib/embed-url.ts:4-6 | with the configured host it is the URL every other flow builds |
| DevisDemo.DevisPage.constructor | src/components/devis-demo.tsx:104-110 | the page starts with the given form and no error, URL or envelope |
| DevisDemo.QuoteTitle | src/components/devis-demo.tsx:229 | the envelope title is "Quote – " followed by the client name, or by the quote number when the client name is empty |
| DevisDemo.DevisPage.HandleSendForSignatureAsWritten | src/components/devis-demo.tsx:216-241 | as written: without a form nothing happens; an action error is shown; on success the uuid is saved and set, but the URL is undefined, so the signing view never opens |
| DevisDemo.DevisPage.HandleSendForSignature | src/components/devis-demo.tsx:216-241 | as intended: the same, except that on success the URL is `buildEmbedSignUrl(token)` and the signing view opens |

## Left out

- The vendor SDK: `SubnotoClient`, `uploadDocument`, `POST` and the session handshake. Each call is an oracle parameter; the file bytes and the multipart body are not modelled.
- Rendering and UI:
  - `mass-upload-panel.tsx`, `create-envelope-card.tsx`, `envelope-list.tsx`, `signing-iframe.tsx`, the pages and the layout;
  - in `devis-demo.tsx`, the JSX, the PDF preview, its debounce timer, the object-URL handling and `generatePdf`.
- The `loading`, `sending`, `copied` and `openingUuid` flags, `handleBack`, `handleCopy` and the clipboard timeout. These are UI state, set and reset around the modelled calls.
- `handleOpenSaved` and `handleFillDummy`. They only forward to `getIframeUrlForEnvelope` and `dummyFormData`, which are modelled.
- `defaultFormData`, `getDefaultClientCompanyAddress`, `pick`, and the client, company, address, date and quote-number fields of `dummyFormData`. They depend on the clock and on random picks and carry no property; only the line-item loop is modelled.
- `formatEuro` and the PDF layout: `Intl.NumberFormat` and rendering are outside the model.
- Floating point. Amounts, rates and totals are exact reals, so float rounding in `reduce` and the tax computation is not modelled.
- The mass-upload count is a finite real: `NaN` (which the panel turns into 1) and the infinities are not modelled.
- Timing. `delayMs` and `setTimeout` are not modelled; the mass upload counts its pauses instead.
- Concurrency. The `cancelled` flag of the status effect is not modelled, because its cleanup runs only on unmount; the loop is modelled sequentially.
- `console.log` and `console.error`.
- `env.ts`, `loadEnv`, dotenv loading, `getProjectRoot` and the file-system reads. The environment is a map over the six variables the demo reads, and the sample PDF's existence is a boolean.
- Browser storage exceptions. A `localStorage.setItem` quota failure, and the call from a server context, are not modelled.
- `JSON.parse`, and JSON key order. A stored entry is absent, empty, unparseable or a parsed JSON value, and objects are maps.
- CreateDevisEnvelope.CreateEnvelopeFromDevisPdf: whether `Buffer.from(pdfBase64, "base64")` succeeds is an input (`decodes`), because decoding is not modelled. The page handlers pass `true`, since `btoa` output always decodes.
- Uuid.TruncateUuid: `length` is a natural number, so the behaviour of `slice` with a negative length is not modelled.
- Uuid.TruncateUuid: lengths count Unicode scalar values, where JavaScript's `length` and `slice` count UTF-16 code units; the two differ only for characters outside the Basic Multilingual Plane, which envelope UUIDs never contain.
- DevisPdfDocument.FirstSeparatorFollowsEmail: stated only for addresses without spaces or bars. An address containing " | " puts a separator inside the e-mail.
- DevisDemo.DummyLineItems: the random draws are a finite sequence, and the method (like DummyLines) gives `None` when they run out. The source loop has no bound, because it retries until enough distinct entries are drawn.
- The older file's own `getClientAndWorkspace`, `getEnvelopeStatus` and `formatEnvelopeError` (`src/actions/create-envelope-and-embed.ts:21-73,256-276`) have no separate members. They match the shared ones line for line, so `SubnotoClient.GetClientAndWorkspace`, `EnvelopeStatus.GetEnvelopeStatus` and `FormatError.FormatEnvelopeError` model them.
- The page handlers take the server action's outcome as a function of the vendor's behaviour, `EmbedOutcome` or `DevisOutcome`. They do not record the action's request trace, which the action's own method states.

## Findings

| source | as written | input that shows it | evidently intended | confidence | as-written member | corrected member |
|---|---|---|---|---|---|---|
| src/components/devis-demo.tsx:237 | the page stores `result.iframeUrl`, but `createEnvelopeFromDevisPdf` resolves to `{ envelopeUuid, iframeToken, host }` (src/actions/create-devis-envelope.ts:8-10,108), so the stored URL is undefined and the signing view (shown only when both URL and uuid are set) never opens | any successful send: config set, owner found, create, send and token all succeed | build the URL from the returned host and token, `host + "/embeds/sign#t=" + iframeToken`, so the signing view opens | not executed | DevisDemo.DevisPage.HandleSendForSignatureAsWritten, DevisDemo.IframeUrlIsNeverReturned | DevisDemo.DevisPage.HandleSendForSignature |
| src/components/devis-demo.tsx:191 | `addLineItem` numbers the new line `String(lineItems.length + 1)`, but `removeLineItem` (line 205) drops a line without renumbering, so after a removal other than of the last line the new id equals the id of the old last line; the ids are the list keys of the form rows (line 438) and of the PDF rows (src/components/devis-pdf-document.tsx:140) | lines "1","2","3": remove line 2, then add one, giving "1","3","3" | number the new line one past the largest id in use, so every form the page reaches keeps distinct ids | not executed | DevisDemo.AddLineItemAsWritten, DevisDemo.RemoveThenAddDuplicatesId | DevisDemo.AddLineItem, DevisDemo.AddLineItemKeepsIdsDistinct, DevisDemo.EditsKeepIdsDistinct |

=== FILE: create_and_sign.dfy ===
/** The create-and-sign page's own logic: listing the saved envelopes that still await
    a signature, and the page state after a new envelope is created. */
module CreateAndSign {
  import opened Values
  import opened Vendor
  import opened SubnotoClient
  import opened EnvelopeStatus
  import opened StorageEnvelopes
  import opened CreateOneEnvelope

  /** The statuses of an envelope that can still be signed. */
  const UnsignedStatuses: seq<string> := ["draft", "uploading", "approving", "signing"]
  const SigningStatus: string := "signing"

  /** An entry of the "saved, unsigned" list. `signerEmail` is whatever the ledger record
      held under that key; the load filter does not check it. */
  datatype ListItem = ListItem(envelopeUuid: string, status: string, signerEmail: Option<JsonValue>)

  /** The record's `signerEmail`, when it is defined. */
  function SignerEmailField(record: JsonValue): (email: Option<JsonValue>)
    requires record.JObject?
    ensures email.Some? <==> SignerEmailKey in record.fields
    ensures email.Some? ==> email.value == record.fields[SignerEmailKey]
  {
    if SignerEmailKey in record.fields then Some(record.fields[SignerEmailKey]) else None
  }

  /** What one ledger record contributes, given the reply to its status lookup. */
  function ItemFor(env: Env, record: JsonValue, reply: Call<Response<string>>): seq<ListItem>
    requires IsSavedEnvelope(record)
  {
    match GetEnvelopeStatus(env, Uuid(record), reply)
    case Err(_) => []
    case Ok(status) =>
      if status in UnsignedStatuses then [ListItem(Uuid(record), status, SignerEmailField(record))] else []
  }

  /** A record yields nothing when its lookup fails or its status is final, and
      otherwise one item carrying its uuid, the looked-up status and its `signerEmail`
      exactly when the record has one. */
  lemma ItemForMeaning(env: Env, record: JsonValue, reply: Call<Response<string>>)
    requires IsSavedEnvelope(record)
    ensures var items := ItemFor(env, record, reply);
      var status := GetEnvelopeStatus(env, Uuid(record), reply);
      && |items| <= 1
      && (|items| == 1 <==> status.Ok? && status.value in UnsignedStatuses)
      && (|items| == 1 ==>
            && items[0].envelopeUuid == Uuid(record)
            && items[0].status == status.value
            && (items[0].signerEmail.Some? <==> SignerEmailKey in record.fields)
            && (items[0].signerEmail.Some? ==> items[0].signerEmail.value == record.fields[SignerEmailKey]))
  {
  }

  /** What each ledger record contributes, in ledger order. */
  function Contributions(env: Env, records: seq<JsonValue>, replies: seq<Call<Response<string>>>): (parts: seq<seq<ListItem>>)
    requires AllSaved(records) && |replies| == |records|
    ensures |parts| == |records|
  {
    seq(|records|, i requires 0 <= i < |records| => ItemFor(env, records[i], replies[i]))
  }

  /** The contributions one after the other. */
  function Concat(parts: seq<seq<ListItem>>): seq<ListItem>
  {
    if parts == [] then [] else Concat(parts[..|parts| - 1]) + parts[|parts| - 1]
  }

  /** The list the status effect builds from the ledger, one status reply per record. */
  function UnsignedItems(env: Env, records: seq<JsonValue>, replies: seq<Call<Response<string>>>): seq<ListItem>
    requires AllSaved(records) && |replies| == |records|
  {
    Concat(Contributions(env, records, replies))
  }

  /** One more part extends the concatenation by that part. */
  lemma ConcatStep(parts: seq<seq<ListItem>>, i: nat)
    requires i < |parts|
    ensures Concat(parts[..i + 1]) == Concat(parts[..i]) + parts[i]
  {
    assert parts[..i + 1][..i] == parts[..i];
  }

  lemma {:induction false} ConcatAppend(p: seq<seq<ListItem>>, q: seq<seq<ListItem>>)
    ensures Concat(p + q) == Concat(p) + Concat(q)
    decreases |q|
  {
    if q == [] {
      assert p + q == p;
    } else {
      var n := |q| - 1;
      assert (p + q)[..|p| + n] == p + q[..n];
      ConcatAppend(p, q[..n]);
    }
  }

  /** Membership in the concatenation is membership in one of the parts. */
  lemma ConcatMembers(parts: seq<seq<ListItem>>, x: ListItem)
    ensures x in Concat(parts) <==> exists i | 0 <= i < |parts| :: x in parts[i]
  {
    if x in Concat(parts) {
      var i := ConcatMemberFrom(parts, x);
    }
    if exists i | 0 <= i < |parts| :: x in parts[i] {
      var i :| 0 <= i < |parts| && x in parts[i];
      ConcatMemberTo(parts, x, i);
    }
  }

  /** A member of the concatenation lies in some part. */
  lemma {:induction false} ConcatMemberFrom(parts: seq<seq<ListItem>>, x: ListItem) returns (i: nat)
    requires x in Concat(parts)
    ensures i < |parts| && x in parts[i]
  {
    var n := |parts| - 1;
    assert Concat(parts) == Concat(parts[..n]) + parts[n];
    if x in parts[n] {
      i := n;
    } else {
      i := ConcatMemberFrom(parts[..n], x);
      assert parts[..n][i] == parts[i];
    }
  }

  /** A member of some part lies in the concatenation. */
  lemma {:induction false} ConcatMemberTo(parts: seq<seq<ListItem>>, x: ListItem, i: nat)
    requires i < |parts| && x in parts[i]
    ensures x in Concat(parts)
  {
    var n := |parts| - 1;
    assert Concat(parts) == Concat(parts[..n]) + parts[n];
    if i < n {
      assert parts[..n][i] == parts[i];
      ConcatMemberTo(parts[..n], x, i);
    }
  }

  lemma {:induction false} ConcatOfEmpty(parts: seq<seq<ListItem>>)
    requires forall i | 0 <= i < |parts| :: parts[i] == []
    ensures Concat(parts) == []
  {
    if parts != [] {
      var n := |parts| - 1;
      assert forall i | 0 <= i < n :: parts[..n][i] == parts[i];
      ConcatOfEmpty(parts[..n]);
    }
  }

  lemma AllSavedAppend(a: seq<JsonValue>, b: seq<JsonValue>)
    requires AllSaved(a) && AllSaved(b)
    ensures AllSaved(a + b)
  {
    forall i | 0 <= i < |a + b| ensures IsSavedEnvelope((a + b)[i]) {
      if i >= |a| { assert (a + b)[i] == b[i - |a|]; }
    }
  }

  /** The list is built piecewise in ledger order: the items of a longer ledger are
      those of its first part followed by those of the rest. */
  lemma UnsignedItemsAppend(env: Env, a: seq<JsonValue>, ra: seq<Call<Response<string>>>,
                            b: seq<JsonValue>, rb: seq<Call<Response<string>>>)
    requires AllSaved(a) && |ra| == |a| && AllSaved(b) && |rb| == |b|
    ensures AllSaved(a + b)
    ensures UnsignedItems(env, a + b, ra + rb) == UnsignedItems(env, a, ra) + UnsignedItems(env, b, rb)
  {
    AllSavedAppend(a, b);
    var pa, pb := Contributions(env, a, ra), Contributions(env, b, rb);
    forall k | 0 <= k < |a + b| ensures Contributions(env, a + b, ra + rb)[k] == (pa + pb)[k] {
      if k >= |a| {
        assert (a + b)[k] == b[k - |a|] && (ra + rb)[k] == rb[k - |a|];
      }
    }
    assert Contributions(env, a + b, ra + rb) == pa + pb;
    ConcatAppend(pa, pb);
  }

  /** An item is listed exactly when some ledger record produced it. */
  lemma UnsignedItemsMembers(env: Env, records: seq<JsonValue>, replies: seq<Call<Response<string>>>, item: ListItem)
    requires AllSaved(records) && |replies| == |records|
    ensures item in UnsignedItems(env, records, replies) <==>
      exists i | 0 <= i < |records| :: ItemFor(env, records[i], replies[i]) == [item]
  {
    var parts := Contributions(env, records, replies);
    ConcatMembers(parts, item);
    if item in UnsignedItems(env, records, replies) {
      var i :| 0 <= i < |parts| && item in parts[i];
      ItemForMeaning(env, records[i], replies[i]);
      assert ItemFor(env, records[i], replies[i]) == [item];
    }
    if exists i | 0 <= i < |records| :: ItemFor(env, records[i], replies[i]) == [item] {
      var i :| 0 <= i < |records| && ItemFor(env, records[i], replies[i]) == [item];
      assert item in parts[i];
    }
  }

  /** Every listed envelope is in a status that can still be signed. */
  lemma UnsignedItemsAreUnsigned(env: Env, records: seq<JsonValue>, replies: seq<Call<Response<string>>>)
    requires AllSaved(records) && |replies| == |records|
    ensures forall item | item in UnsignedItems(env, records, replies) :: item.status in UnsignedStatuses
  {
    forall item | item in UnsignedItems(env, records, replies) ensures item.status in UnsignedStatuses {
      UnsignedItemsMembers(env, records, replies, item);
      var i :| 0 <= i < |records| && ItemFor(env, records[i], replies[i]) == [item];
      ItemForMeaning(env, records[i], replies[i]);
    }
  }

  /** Without configuration every lookup fails, so nothing is listed. */
  lemma UnconfiguredListsNothing(env: Env, records: seq<JsonValue>, replies: seq<Call<Response<string>>>)
    requires !Configured(env)
    requires AllSaved(records) && |replies| == |records|
    ensures UnsignedItems(env, records, replies) == []
  {
    var parts := Contributions(env, records, replies);
    forall i | 0 <= i < |parts| ensures parts[i] == [] {
      ItemForMeaning(env, records[i], replies[i]);
    }
    ConcatOfEmpty(parts);
  }

  /** One pass of the status effect's loop: look the record's envelope up and keep it
      when the lookup succeeds with a status that can still be signed. */
  method LookUpOne(env: Env, record: JsonValue, reply: Call<Response<string>>)
    returns (uuid: string, added: seq<ListItem>)
    requires IsSavedEnvelope(record)
    ensures uuid == Uuid(record)
    ensures added == ItemFor(env, record, reply)
  {
    uuid := Uuid(record);
    var result := GetEnvelopeStatus(env, uuid, reply);
    added := [];
    if result.Ok? && result.value in UnsignedStatuses {
      var email := if SignerEmailKey in record.fields then Some(record.fields[SignerEmailKey]) else None;
      added := [ListItem(uuid, result.value, email)];
    }
  }

  /** The status effect's loop: look up each record in turn, skip failed lookups and
      keep the unsigned ones. `replies[i]` is what the i-th lookup's vendor call does;
      `lookups` lists the uuids looked up, in order. */
  method LookUpEach(env: Env, records: seq<JsonValue>, replies: seq<Call<Response<string>>>)
    returns (items: seq<ListItem>, lookups: seq<string>)
    requires AllSaved(records) && |replies| == |records|
    ensures items == UnsignedItems(env, records, replies)
    ensures |lookups| == |records| && forall i | 0 <= i < |records| :: lookups[i] == Uuid(records[i])
  {
    items, lookups := [], [];
    ghost var parts := Contributions(env, records, replies);
    var i := 0;
    while i < |records|
      invariant 0 <= i <= |records|
      invariant items == Concat(parts[..i])
      invariant |lookups| == i && forall j | 0 <= j < i :: lookups[j] == Uuid(records[j])
    {
      var uuid, added := LookUpOne(env, records[i], replies[i]);
      ghost var before := lookups;
      lookups := lookups + [uuid];
      assert forall j | 0 <= j < i :: lookups[j] == before[j];
      assert added == parts[i];
      ConcatStep(parts, i);
      items := items + added;
      i := i + 1;
    }
    assert parts[..i] == parts;
  }

  /** The status effect: load the ledger; when it is empty no lookup is made, otherwise
      each record is looked up in turn. */
  method CollectUnsigned(env: Env, stored: Stored, replies: seq<Call<Response<string>>>)
    returns (hasSaved: bool, items: seq<ListItem>, lookups: seq<string>)
    requires |replies| == |LoadSavedEnvelopes(true, stored)|
    ensures var records := LoadSavedEnvelopes(true, stored);
      && hasSaved == (|records| > 0)
      && items == UnsignedItems(env, records, replies)
      && |lookups| == |records|
      && (forall i | 0 <= i < |records| :: lookups[i] == Uuid(records[i]))
  {
    var records := LoadSavedEnvelopes(true, stored);
    hasSaved := |records| > 0;
    if |records| == 0 {
      items, lookups := [], [];
      return;
    }
    items, lookups := LookUpEach(env, records, replies);
  }

  /** `prev.filter((e) => e.envelopeUuid !== envelopeUuid)`. */
  function WithoutUuid(prev: seq<ListItem>, envelopeUuid: string): (rest: seq<ListItem>)
    ensures |rest| <= |prev|
    ensures forall item | item in rest :: item.envelopeUuid != envelopeUuid
  {
    if prev == [] then []
    else (if prev[0].envelopeUuid != envelopeUuid then [prev[0]] else []) + WithoutUuid(prev[1..], envelopeUuid)
  }

  /** The filter keeps an item exactly when it is listed and has another uuid. */
  lemma {:induction false} WithoutUuidMembers(prev: seq<ListItem>, envelopeUuid: string)
    ensures forall item :: item in WithoutUuid(prev, envelopeUuid) <==> item in prev && item.envelopeUuid != envelopeUuid
  {
    if prev != [] {
      WithoutUuidMembers(prev[1..], envelopeUuid);
      assert prev == [prev[0]] + prev[1..];
    }
  }

  /** The filter keeps the order of what it keeps. */
  lemma {:induction false} WithoutUuidAppend(a: seq<ListItem>, b: seq<ListItem>, envelopeUuid: string)
    ensures WithoutUuid(a + b, envelopeUuid) == WithoutUuid(a, envelopeUuid) + WithoutUuid(b, envelopeUuid)
  {
    if a == [] {
      assert a + b == b;
    } else {
      assert (a + b)[1..] == a[1..] + b;
      WithoutUuidAppend(a[1..], b, envelopeUuid);
    }
  }

  /** The list after a successful create: the previous entries for other uuids, then
      the new envelope as "signing". */
  function AfterCreate(prev: seq<ListItem>, envelopeUuid: string): (next: seq<ListItem>)
    ensures |next| >= 1 && next[|next| - 1] == ListItem(envelopeUuid, SigningStatus, None)
    ensures forall i | 0 <= i < |next| - 1 :: next[i].envelopeUuid != envelopeUuid
    ensures forall item :: item in next[..|next| - 1] <==> item in prev && item.envelopeUuid != envelopeUuid
  {
    WithoutUuidMembers(prev, envelopeUuid);
    var rest := WithoutUuid(prev, envelopeUuid);
    assert (rest + [ListItem(envelopeUuid, SigningStatus, None)])[..|rest|] == rest;
    rest + [ListItem(envelopeUuid, SigningStatus, None)]
  }

  predicate DistinctItems(items: seq<ListItem>)
  {
    forall i, j | 0 <= i < j < |items| :: items[i].envelopeUuid != items[j].envelopeUuid
  }

  /** The filter of a list with distinct uuids has distinct uuids. */
  lemma {:induction false} WithoutUuidKeepsDistinct(prev: seq<ListItem>, envelopeUuid: string)
    requires DistinctItems(prev)
    ensures DistinctItems(WithoutUuid(prev, envelopeUuid))
  {
    if prev != [] {
      WithoutUuidKeepsDistinct(prev[1..], envelopeUuid);
      WithoutUuidMembers(prev[1..], envelopeUuid);
      var tail := WithoutUuid(prev[1..], envelopeUuid);
      forall item | item in tail ensures item.envelopeUuid != prev[0].envelopeUuid {
        var k :| 0 <= k < |prev[1..]| && prev[1..][k] == item;
        assert prev[k + 1] == item;
      }
    }
  }

  /** Creating never duplicates an entry: distinct uuids stay distinct. */
  lemma AfterCreateKeepsDistinct(prev: seq<ListItem>, envelopeUuid: string)
    requires DistinctItems(prev)
    ensures DistinctItems(AfterCreate(prev, envelopeUuid))
  {
    WithoutUuidKeepsDistinct(prev, envelopeUuid);
  }

  /** The page's state. */
  class CreateAndSignPage {
    var iframeUrl: Option<string>
    var envelopeUuid: Option<string>
    var error: Option<string>
    var savedUnsigned: seq<ListItem>
    const storage: BrowserStorage

    constructor (storage: BrowserStorage, savedUnsigned: seq<ListItem>)
      ensures this.storage == storage && this.savedUnsigned == savedUnsigned
      ensures iframeUrl.None? && envelopeUuid.None? && error.None?
    {
      this.storage := storage;
      this.savedUnsigned := savedUnsigned;
      iframeUrl, envelopeUuid, error := None, None, None;
    }

    /** `handleCreate`, given what the action does (`s`, `pdfExists`) and the clock. A
        rejected action leaves the error cleared and propagates; `threw` reports it. */
    method HandleCreate(env: Env, pdfExists: bool, s: EmbedScript, now: int) returns (threw: bool)
      modifies this, storage
      ensures var outcome := EmbedOutcome(env, pdfExists, s, DefaultTitle);
        && (threw <==> outcome.Rejected?)
        && (outcome.Rejected? ==>
              error.None? && iframeUrl == old(iframeUrl) && envelopeUuid == old(envelopeUuid)
              && savedUnsigned == old(savedUnsigned) && storage.stored == old(storage.stored))
        && (outcome.Resolved? && outcome.result.Err? ==>
              error == Some(outcome.result.error) && iframeUrl == old(iframeUrl) && envelopeUuid == old(envelopeUuid)
              && savedUnsigned == old(savedUnsigned) && storage.stored == old(storage.stored))
        && (outcome.Resolved? && outcome.result.Ok? ==>
              var created := outcome.result.value;
              && error.None? && envelopeUuid == Some(created.envelopeUuid) && iframeUrl == Some(created.iframeUrl)
              && savedUnsigned == AfterCreate(old(savedUnsigned), created.envelopeUuid)
              && storage.stored == AfterSave(old(storage.stored), created.envelopeUuid, Some(created.signerEmail), now))
    {
      error := None;
      var outcome := EmbedOutcome(env, pdfExists, s, DefaultTitle);
      if outcome.Rejected? {
        return true;
      }
      threw := false;
      if outcome.result.Err? {
        error := Some(outcome.result.error);
        return;
      }
      var created := outcome.result.value;
      storage.SaveEnvelope(created.envelopeUuid, Some(created.signerEmail), now);
      envelopeUuid := Some(created.envelopeUuid);
      iframeUrl := Some(created.iframeUrl);
      savedUnsigned := AfterCreate(savedUnsigned, created.envelopeUuid);
    }
  }
}

=== FILE: create_devis_envelope.dfy ===
/** Sending a generated quote for signature: the PDF carries a Smart Anchor, so the
    envelope is created from the file with anchor detection, sent, and a token issued;
    no signature block is ever added explicitly. */
module CreateDevisEnvelope {
  import opened Values
  import opened Vendor
  import opened SubnotoClient
  import opened FormatError
  import opened EmbedUrl
  import opened Whoami
  import opened IframeToken
  import opened CreateOneEnvelope

  /** The identifiers in a `create-from-file` response, either of which may be missing. */
  datatype FileIds = FileIds(envelopeUuid: Option<string>, documentUuid: Option<string>)

  /** What the vendor does in `createEnvelopeFromDevisPdf`. */
  datatype DevisScript = DevisScript(
    owner: Call<Response<WhoamiData>>,
    create: Call<Response<FileIds>>,
    send: Call<Response<()>>,
    token: Call<Response<string>>)

  /** The success shape: the raw token and the embed host, not a built URL. */
  datatype DevisCreated = DevisCreated(envelopeUuid: string, iframeToken: string, host: string)

  const InvalidPdf: string := "Invalid PDF data"
  const CreateFailed: string := "Failed to create envelope"

  /** The create call succeeded: no truthy error and both identifiers non-empty. */
  predicate EnvelopeCreated(c: Call<Response<FileIds>>)
  {
    && c.Returned? && !Truthy(c.value.error) && c.value.data.Some?
    && Present(c.value.data.value.envelopeUuid) && Present(c.value.data.value.documentUuid)
  }

  /** What `createEnvelopeFromDevisPdf` returns, as a function of what the vendor does. */
  function DevisOutcome(env: Env, decodes: bool, envelopeTitle: string, s: DevisScript): (r: Result<DevisCreated>)
    ensures r.Ok? <==>
      && Configured(env) && GetOwnerEmail(env, s.owner).Ok? && decodes
      && EnvelopeCreated(s.create) && Passed(s.send) && TokenIssued(s.token)
    ensures r.Ok? ==>
      r.value == DevisCreated(s.create.value.data.value.envelopeUuid.value, s.token.value.data.value, EmbedBaseUrl(env))
  {
    if !Configured(env) then Err(MissingEnvMessage)
    else match GetOwnerEmail(env, s.owner)
      case Err(e) => Err(e)
      case Ok(_) =>
        var baseUrl := env[SubnotoBaseUrl];
        if !decodes then Err(InvalidPdf)
        else if s.create.Threw? then Err(FormatEnvelopeError(s.create.exception, baseUrl))
        else if !EnvelopeCreated(s.create) then Err(ErrorMessage(s.create.value.error, CreateFailed, CreateFailed))
        else if !Passed(s.send) then Err(StepError(s.send, SendFailed, baseUrl))
        else if s.token.Threw? then Err(FormatEnvelopeError(s.token.exception, baseUrl))
        else if !TokenIssued(s.token) then Err(ErrorMessage(s.token.value.error, TokenFailed, TokenFailed))
        else Ok(DevisCreated(s.create.value.data.value.envelopeUuid.value, s.token.value.data.value, EmbedBaseUrl(env)))
  }

  /** `createEnvelopeFromDevisPdf(pdfBase64, envelopeTitle)`; `decodes` says whether
      decoding the base64 text succeeded. */
  method CreateEnvelopeFromDevisPdf(env: Env, decodes: bool, envelopeTitle: string, s: DevisScript)
    returns (result: Result<DevisCreated>, calls: seq<Request>)
    ensures result == DevisOutcome(env, decodes, envelopeTitle, s)
    ensures forall c | c in calls :: !c.AddBlocks? && !c.UploadDocument?
    ensures !Configured(env) ==> result == Err(MissingEnvMessage) && calls == []
    ensures Configured(env) && GetOwnerEmail(env, s.owner).Err? ==>
      result == Err(GetOwnerEmail(env, s.owner).error) && calls == [Whoami]
    ensures Configured(env) && GetOwnerEmail(env, s.owner).Ok? && !decodes ==>
      result == Err(InvalidPdf) && calls == [Whoami]
    ensures Configured(env) && GetOwnerEmail(env, s.owner).Ok? && decodes ==>
      var ws := env[WorkspaceUuid];
      var baseUrl := env[SubnotoBaseUrl];
      var signer := GetOwnerEmail(env, s.owner).value;
      && |calls| >= 2 && calls[..2] == [Whoami, CreateFromFile(ws, envelopeTitle, "true")]
      && (s.create.Threw? ==> result == Err(FormatEnvelopeError(s.create.exception, baseUrl)) && |calls| == 2)
      && (s.create.Returned? && !EnvelopeCreated(s.create) ==>
            result == Err(ErrorMessage(s.create.value.error, CreateFailed, CreateFailed)) && |calls| == 2)
      && (EnvelopeCreated(s.create) ==>
            var envelopeUuid := s.create.value.data.value.envelopeUuid.value;
            && |calls| >= 3 && calls[2] == Send(ws, envelopeUuid, "none")
            && (!Passed(s.send) ==> result == Err(StepError(s.send, SendFailed, baseUrl)) && |calls| == 3)
            && (Passed(s.send) ==>
                  && calls == [Whoami, CreateFromFile(ws, envelopeTitle, "true"), Send(ws, envelopeUuid, "none"),
                               CreateIframeToken(ws, envelopeUuid, signer)]
                  && (s.token.Threw? ==> result == Err(FormatEnvelopeError(s.token.exception, baseUrl)))
                  && (s.token.Returned? && !TokenIssued(s.token) ==>
                        result == Err(ErrorMessage(s.token.value.error, TokenFailed, TokenFailed)))
                  && (TokenIssued(s.token) ==>
                        result == Ok(DevisCreated(envelopeUuid, s.token.value.data.value, EmbedBaseUrl(env))))))
  {
    calls := [];
    var ctx := GetClientAndWorkspace(env);
    if ctx.Err? {
      result := Err(ctx.error);
      return;
    }
    var ws, baseUrl := ctx.value.workspaceUuid, ctx.value.baseUrl;

    var owner := GetOwnerEmail(env, s.owner);
    calls := calls + [Whoami];
    if owner.Err? {
      result := Err(owner.error);
      return;
    }
    var signerEmail := owner.value;

    if !decodes {
      result := Err(InvalidPdf);
      return;
    }

    calls := calls + [CreateFromFile(ws, envelopeTitle, "true")];
    if s.create.Threw? {
      result := Err(FormatEnvelopeError(s.create.exception, baseUrl));
      return;
    }
    var created := s.create.value;
    if Truthy(created.error) || created.data.None? || !Present(created.data.value.envelopeUuid)
       || !Present(created.data.value.documentUuid) {
      result := Err(ErrorMessage(created.error, CreateFailed, CreateFailed));
      return;
    }
    var envelopeUuid := created.data.value.envelopeUuid.value;

    calls := calls + [Send(ws, envelopeUuid, "none")];
    if s.send.Threw? {
      result := Err(FormatEnvelopeError(s.send.exception, baseUrl));
      return;
    }
    if Truthy(s.send.value.error) {
      result := Err(ErrorMessage(s.send.value.error, SendFailed, SendFailed));
      return;
    }

    calls := calls + [CreateIframeToken(ws, envelopeUuid, signerEmail)];
    if s.token.Threw? {
      result := Err(FormatEnvelopeError(s.token.exception, baseUrl));
      return;
    }
    var tokenResponse := s.token.value;
    if Truthy(tokenResponse.error) || !Present(tokenResponse.data) {
      result := Err(ErrorMessage(tokenResponse.error, TokenFailed, TokenFailed));
      return;
    }
    result := Ok(DevisCreated(envelopeUuid, tokenResponse.data.value, EmbedBaseUrl(env)));
  }
}

=== FILE: create_envelope_and_embed.dfy ===
/** The older, self-contained copy of the embedded flow: its own configuration gate
    and status lookup (the same as the shared ones), a signing-link lookup that only
    treats an undefined e-mail as missing, and the five creation steps in one `try`. */
module CreateEnvelopeAndEmbed {
  import opened Values
  import opened Vendor
  import opened SubnotoClient
  import opened FormatError
  import opened EmbedUrl
  import opened Whoami
  import opened IframeToken
  import opened CreateOneEnvelope

  const LegacySigner: SignerName := SignerName("Corentin", "Subnoto")

  /** `getIframeUrlForEnvelope` of this copy: only an undefined e-mail triggers the owner
      lookup; an empty one is sent as it is. */
  method GetIframeUrlForEnvelope(env: Env, envelopeUuid: string, signerEmail: Option<string>,
                                 owner: Call<Response<WhoamiData>>, token: Call<Response<string>>)
    returns (result: Result<string>, calls: seq<Request>)
    ensures !Configured(env) ==> result == Err(MissingEnvMessage) && calls == []
    ensures Configured(env) && signerEmail.None? && GetOwnerEmail(env, owner).Err? ==>
      result == Err(GetOwnerEmail(env, owner).error) && calls == [Whoami]
    ensures Configured(env) && (signerEmail.Some? || GetOwnerEmail(env, owner).Ok?) ==>
      var email := if signerEmail.None? then GetOwnerEmail(env, owner).value else signerEmail.value;
      && calls == (if signerEmail.None? then [Whoami] else []) + [CreateIframeToken(env[WorkspaceUuid], envelopeUuid, email)]
      && (token.Threw? ==> result == Err(ThrownMessage(token.exception, SigningLinkFailed)))
      && (token.Returned? && !TokenIssued(token) ==> result == Err(ErrorMessage(token.value.error, TokenFailed, TokenFailed)))
      && (TokenIssued(token) ==> result == Ok(BuildEmbedSignUrl(env, token.value.data.value)))
  {
    calls := [];
    var ctx := GetClientAndWorkspace(env);
    if ctx.Err? {
      result := Err(ctx.error);
      return;
    }
    var email := signerEmail;
    if email.None? {
      var ownerResult := GetOwnerEmail(env, owner);
      calls := calls + [Whoami];
      if ownerResult.Err? {
        result := Err(ownerResult.error);
        return;
      }
      email := Some(ownerResult.value);
    }
    calls := calls + [CreateIframeToken(ctx.value.workspaceUuid, envelopeUuid, email.value)];
    match token
    case Threw(ex) =>
      result := Err(ThrownMessage(ex, SigningLinkFailed));
    case Returned(response) =>
      if Truthy(response.error) || !Present(response.data) {
        result := Err(ErrorMessage(response.error, TokenFailed, TokenFailed));
      } else {
        result := Ok(EmbedBaseUrl(env) + EmbedSignPath + "#t=" + response.data.value);
      }
  }

  /** Steps 1 to 4 of this copy's `createEnvelopeAndEmbed` (upload, recipients, block,
      send), inside its `try`: they behave as the shared four-step sequence with the
      signer named "Corentin Subnoto". */
  method CreationSteps(ws: string, baseUrl: string, signerEmail: string, b: BufferScript)
    returns (result: Result<Created>, calls: seq<Request>)
    ensures Run(result, calls) == BufferRun(baseUrl, ws, DefaultTitle, signerEmail, LegacySigner, b)
  {
    // Step 1: upload
    calls := [UploadDocument(ws, DefaultTitle)];
    if b.upload.Threw? {
      result := Err(FormatEnvelopeError(b.upload.exception, baseUrl));
      return;
    }
    var ids := b.upload.value;

    // Step 2: recipients
    calls := calls + [AddRecipients(ws, ids.envelopeUuid, [Recipient("manual", signerEmail, "Corentin", "Subnoto")])];
    if b.recipients.Threw? {
      result := Err(FormatEnvelopeError(b.recipients.exception, baseUrl));
      return;
    }
    if Truthy(b.recipients.value.error) {
      result := Err(ErrorMessage(b.recipients.value.error, RecipientsFailed, RecipientsFailed));
      return;
    }

    // Step 3: signature block
    calls := calls + [AddBlocks(ws, ids.envelopeUuid, ids.documentUuid, [Block("signature", "1", 100, 400, signerEmail)])];
    if b.blocks.Threw? {
      result := Err(FormatEnvelopeError(b.blocks.exception, baseUrl));
      return;
    }
    if Truthy(b.blocks.value.error) {
      result := Err(ErrorMessage(b.blocks.value.error, BlocksFailed, BlocksFailed));
      return;
    }

    // Step 4: send
    calls := calls + [Send(ws, ids.envelopeUuid, "none")];
    if b.send.Threw? {
      result := Err(FormatEnvelopeError(b.send.exception, baseUrl));
      return;
    }
    if Truthy(b.send.value.error) {
      result := Err(ErrorMessage(b.send.value.error, SendFailed, SendFailed));
      return;
    }
    result := Ok(ids);
  }

  /** `createEnvelopeAndEmbed` of this copy: configuration, owner e-mail and sample PDF
      first; then upload (title "Mass upload signing"), recipients, blocks, send and
      token, the first failure ending the sequence, every throw caught and formatted. */
  method CreateEnvelopeAndEmbed(env: Env, pdfExists: bool, s: EmbedScript)
    returns (result: Result<Embedded>, calls: seq<Request>)
    ensures !Configured(env) ==> result == Err(MissingEnvMessage) && calls == []
    ensures Configured(env) && GetOwnerEmail(env, s.owner).Err? ==>
      result == Err(GetOwnerEmail(env, s.owner).error) && calls == [Whoami]
    ensures Configured(env) && GetOwnerEmail(env, s.owner).Ok? && !pdfExists ==>
      result == Err(MissingPdf) && calls == [Whoami]
    ensures Configured(env) && GetOwnerEmail(env, s.owner).Ok? && pdfExists ==>
      var ws := env[WorkspaceUuid];
      var baseUrl := env[SubnotoBaseUrl];
      var signer := GetOwnerEmail(env, s.owner).value;
      var run := BufferRun(baseUrl, ws, DefaultTitle, signer, LegacySigner, s.buffer);
      && (run.result.Err? ==> result == Err(run.result.error) && calls == [Whoami] + run.calls)
      && (run.result.Ok? ==>
            && calls == [Whoami] + run.calls + [CreateIframeToken(ws, run.result.value.envelopeUuid, signer)]
            && (s.token.Threw? ==> result == Err(FormatEnvelopeError(s.token.exception, baseUrl)))
            && (s.token.Returned? && !TokenIssued(s.token) ==>
                  result == Err(ErrorMessage(s.token.value.error, TokenFailed, TokenFailed)))
            && (TokenIssued(s.token) ==>
                  result == Ok(Embedded(run.result.value.envelopeUuid,
                                        BuildEmbedSignUrl(env, s.token.value.data.value), signer))))
  {
    calls := [];
    var ctx := GetClientAndWorkspace(env);
    if ctx.Err? {
      result := Err(ctx.error);
      return;
    }
    var ws, baseUrl := ctx.value.workspaceUuid, ctx.value.baseUrl;
    var owner := GetOwnerEmail(env, s.owner);
    calls := calls + [Whoami];
    if owner.Err? {
      result := Err(owner.error);
      return;
    }
    var signerEmail := owner.value;
    if !pdfExists {
      result := Err(MissingPdf);
      return;
    }
    var created, stepCalls := CreationSteps(ws, baseUrl, signerEmail, s.buffer);
    calls := calls + stepCalls;
    if created.Err? {
      result := Err(created.error);
      return;
    }
    var ids := created.value;

    // Step 5: iframe token
    calls := calls + [CreateIframeToken(ws, ids.envelopeUuid, signerEmail)];
    if s.token.Threw? {
      result := Err(FormatEnvelopeError(s.token.exception, baseUrl));
      return;
    }
    var tokenResponse := s.token.value;
    if Truthy(tokenResponse.error) || !Present(tokenResponse.data) {
      result := Err(ErrorMessage(tokenResponse.error, TokenFailed, TokenFailed));
      return;
    }
    result := Ok(Embedded(ids.envelopeUuid, EmbedBaseUrl(env) + EmbedSignPath + "#t=" + tokenResponse.data.value, signerEmail));
  }
}

=== FILE: create_one_envelope.dfy ===
/** Creating one envelope from the sample PDF: upload, add the recipient, add the
    signature block, send; then, for the embedded flow, issue an iframe token. */
module CreateOneEnvelope {
  import opened Values
  import opened Vendor
  import opened SubnotoClient
  import opened FormatError
  import opened EmbedUrl
  import opened Whoami
  import opened IframeToken

  /** The identifiers `uploadDocument` resolves to. */
  datatype Created = Created(envelopeUuid: string, documentUuid: string)

  /** What the vendor does at each of the four steps of `createEnvelopeFromBuffer`. */
  datatype BufferScript = BufferScript(
    upload: Call<Created>,
    recipients: Call<Response<()>>,
    blocks: Call<Response<()>>,
    send: Call<Response<()>>)

  /** The recipient's display name, the only thing the two copies of the sequence disagree on. */
  datatype SignerName = SignerName(first: string, last: string)

  const DemoSigner: SignerName := SignerName("Demo", "Signer")

  const RecipientsFailed: string := "Failed to add recipients"
  const BlocksFailed: string := "Failed to add signature block"
  const SendFailed: string := "Failed to send envelope"
  const MissingPdf: string := "Missing assets/sample-multipage.pdf. Add it to the assets folder."
  const DefaultTitle: string := "Mass upload signing"

  /** A sequence of vendor calls with the result it produced. */
  datatype Run<+T> = Run(result: Result<T>, calls: seq<Request>)

  /** The promise an action returns: it resolves to a result, or rejects with an
      exception nothing caught. */
  datatype Settled<+T> = Resolved(result: Result<T>) | Rejected(exception: Exception)

  /** The four requests of one envelope creation, in order: the single recipient and
      the signature block (page "1", x 100, y 400) both name the signer, and sending
      uses distribution method "none". */
  function BufferRequests(workspaceUuid: string, title: string, signerEmail: string, name: SignerName, ids: Created): (reqs: seq<Request>)
  {
    [ UploadDocument(workspaceUuid, title),
      AddRecipients(workspaceUuid, ids.envelopeUuid, [Recipient("manual", signerEmail, name.first, name.last)]),
      AddBlocks(workspaceUuid, ids.envelopeUuid, ids.documentUuid, [Block("signature", "1", 100, 400, signerEmail)]),
      Send(workspaceUuid, ids.envelopeUuid, "none") ]
  }

  /** The message for a data-less step that did not pass: a throw goes through the
      shared formatter, an error value through the shared normalisation. */
  function StepError(c: Call<Response<()>>, fallback: string, catchBaseUrl: string): string
    requires !Passed(c)
  {
    if c.Threw? then FormatEnvelopeError(c.exception, catchBaseUrl) else ErrorMessage(c.value.error, fallback, fallback)
  }

  /** The base URL the `catch` block reports: the gate is consulted again and "" is
      used when it fails. */
  function CatchBaseUrl(env: Env): (url: string)
    ensures Configured(env) ==> url == env[SubnotoBaseUrl]
    ensures !Configured(env) ==> url == ""
  {
    match GetClientAndWorkspace(env)
    case Err(_) => ""
    case Ok(ctx) => ctx.baseUrl
  }

  /** What the four-step sequence does: steps run in order, the first failure stops
      it, and success hands back exactly the identifiers the upload produced. */
  function BufferRun(catchBaseUrl: string, workspaceUuid: string, title: string, signerEmail: string,
                     name: SignerName, s: BufferScript): (run: Run<Created>)
    ensures 1 <= |run.calls| <= 4 && run.calls[0] == UploadDocument(workspaceUuid, title)
    ensures s.upload.Returned? ==> run.calls == BufferRequests(workspaceUuid, title, signerEmail, name, s.upload.value)[..|run.calls|]
    ensures |run.calls| >= 2 ==> s.upload.Returned?
    ensures |run.calls| >= 3 ==> Passed(s.recipients)
    ensures |run.calls| == 4 ==> Passed(s.blocks)
    ensures run.result.Ok? <==> s.upload.Returned? && Passed(s.recipients) && Passed(s.blocks) && Passed(s.send)
    ensures run.result.Ok? ==> run.result.value == s.upload.value && |run.calls| == 4
    ensures s.upload.Threw? ==> run.result == Err(FormatEnvelopeError(s.upload.exception, catchBaseUrl))
    ensures s.upload.Returned? && !Passed(s.recipients) ==>
      |run.calls| == 2 && run.result == Err(StepError(s.recipients, RecipientsFailed, catchBaseUrl))
    ensures s.upload.Returned? && Passed(s.recipients) && !Passed(s.blocks) ==>
      |run.calls| == 3 && run.result == Err(StepError(s.blocks, BlocksFailed, catchBaseUrl))
    ensures s.upload.Returned? && Passed(s.recipients) && Passed(s.blocks) && !Passed(s.send) ==>
      |run.calls| == 4 && run.result == Err(StepError(s.send, SendFailed, catchBaseUrl))
  {
    match s.upload
    case Threw(ex) => Run(Err(FormatEnvelopeError(ex, catchBaseUrl)), [UploadDocument(workspaceUuid, title)])
    case Returned(ids) =>
      var reqs := BufferRequests(workspaceUuid, title, signerEmail, name, ids);
      if !Passed(s.recipients) then Run(Err(StepError(s.recipients, RecipientsFailed, catchBaseUrl)), reqs[..2])
      else if !Passed(s.blocks) then Run(Err(StepError(s.blocks, BlocksFailed, catchBaseUrl)), reqs[..3])
      else if !Passed(s.send) then Run(Err(StepError(s.send, SendFailed, catchBaseUrl)), reqs)
      else Run(Ok(ids), reqs)
  }

  /** `createEnvelopeFromBuffer`: the awaited steps with their early returns; any throw
      is caught and formatted against the base URL the gate reports. */
  method CreateEnvelopeFromBuffer(env: Env, workspaceUuid: string, title: string, signerEmail: string, s: BufferScript)
    returns (result: Result<Created>, calls: seq<Request>)
    ensures Run(result, calls) == BufferRun(CatchBaseUrl(env), workspaceUuid, title, signerEmail, DemoSigner, s)
  {
    calls := [UploadDocument(workspaceUuid, title)];
    if s.upload.Threw? {
      result := Err(FormatEnvelopeError(s.upload.exception, CatchBaseUrl(env)));
      return;
    }
    var ids := s.upload.value;

    calls := calls + [AddRecipients(workspaceUuid, ids.envelopeUuid, [Recipient("manual", signerEmail, "Demo", "Signer")])];
    if s.recipients.Threw? {
      result := Err(FormatEnvelopeError(s.recipients.exception, CatchBaseUrl(env)));
      return;
    }
    if Truthy(s.recipients.value.error) {
      result := Err(ErrorMessage(s.recipients.value.error, RecipientsFailed, RecipientsFailed));
      return;
    }

    calls := calls + [AddBlocks(workspaceUuid, ids.envelopeUuid, ids.documentUuid, [Block("signature", "1", 100, 400, signerEmail)])];
    if s.blocks.Threw? {
      result := Err(FormatEnvelopeError(s.blocks.exception, CatchBaseUrl(env)));
      return;
    }
    if Truthy(s.blocks.value.error) {
      result := Err(ErrorMessage(s.blocks.value.error, BlocksFailed, BlocksFailed));
      return;
    }

    calls := calls + [Send(workspaceUuid, ids.envelopeUuid, "none")];
    if s.send.Threw? {
      result := Err(FormatEnvelopeError(s.send.exception, CatchBaseUrl(env)));
      return;
    }
    if Truthy(s.send.value.error) {
      result := Err(ErrorMessage(s.send.value.error, SendFailed, SendFailed));
      return;
    }
    result := Ok(ids);
  }

  /** What the vendor does in `createEnvelopeAndEmbed`: the owner lookup, the four
      creation steps and the token request. */
  datatype EmbedScript = EmbedScript(owner: Call<Response<WhoamiData>>, buffer: BufferScript, token: Call<Response<string>>)

  datatype Embedded = Embedded(envelopeUuid: string, iframeUrl: string, signerEmail: string)

  /** How `createEnvelopeAndEmbed` settles, as a function of what the vendor does. */
  function EmbedOutcome(env: Env, pdfExists: bool, s: EmbedScript, envelopeTitle: string): (o: Settled<Embedded>)
    ensures o.Rejected? ==> s.token.Threw? && o.exception == s.token.exception
    ensures !o.Resolved? || o.result.Ok? ==> Configured(env) && GetOwnerEmail(env, s.owner).Ok? && pdfExists
    ensures o.Resolved? && o.result.Ok? ==>
      && TokenIssued(s.token)
      && o.result.value.signerEmail == GetOwnerEmail(env, s.owner).value
      && o.result.value.iframeUrl == BuildEmbedSignUrl(env, s.token.value.data.value)
      && var run := BufferRun(env[SubnotoBaseUrl], env[WorkspaceUuid], envelopeTitle, o.result.value.signerEmail, DemoSigner, s.buffer);
         run.result.Ok? && o.result.value.envelopeUuid == run.result.value.envelopeUuid
  {
    if !Configured(env) then Resolved(Err(MissingEnvMessage))
    else match GetOwnerEmail(env, s.owner)
      case Err(e) => Resolved(Err(e))
      case Ok(signer) =>
        if !pdfExists then Resolved(Err(MissingPdf))
        else
          var run := BufferRun(env[SubnotoBaseUrl], env[WorkspaceUuid], envelopeTitle, signer, DemoSigner, s.buffer);
          if run.result.Err? then Resolved(Err(run.result.error))
          else if s.token.Threw? then Rejected(s.token.exception)
          else if !TokenIssued(s.token) then Resolved(Err(ErrorMessage(s.token.value.error, TokenFailed, TokenFailed)))
          else Resolved(Ok(Embedded(run.result.value.envelopeUuid, BuildEmbedSignUrl(env, s.token.value.data.value), signer)))
  }

  /** `createEnvelopeAndEmbed`: configuration, then the owner's e-mail, then the sample
      PDF are checked before anything is created; the token request sits outside any
      `try`, so a throw there rejects the promise. */
  method CreateEnvelopeAndEmbed(env: Env, pdfExists: bool, s: EmbedScript, envelopeTitle: string := DefaultTitle)
    returns (outcome: Settled<Embedded>, calls: seq<Request>)
    ensures outcome == EmbedOutcome(env, pdfExists, s, envelopeTitle)
    ensures !Configured(env) ==> outcome == Resolved(Err(MissingEnvMessage)) && calls == []
    ensures Configured(env) && GetOwnerEmail(env, s.owner).Err? ==>
      outcome == Resolved(Err(GetOwnerEmail(env, s.owner).error)) && calls == [Whoami]
    ensures Configured(env) && GetOwnerEmail(env, s.owner).Ok? && !pdfExists ==>
      outcome == Resolved(Err(MissingPdf)) && calls == [Whoami]
    ensures Configured(env) && GetOwnerEmail(env, s.owner).Ok? && pdfExists ==>
      var ws := env[WorkspaceUuid];
      var signer := GetOwnerEmail(env, s.owner).value;
      var run := BufferRun(env[SubnotoBaseUrl], ws, envelopeTitle, signer, DemoSigner, s.buffer);
      && (run.result.Err? ==> outcome == Resolved(Err(run.result.error)) && calls == [Whoami] + run.calls)
      && (run.result.Ok? ==>
            && calls == [Whoami] + run.calls + [CreateIframeToken(ws, run.result.value.envelopeUuid, signer)]
            && (s.token.Threw? ==> outcome == Rejected(s.token.exception))
            && (s.token.Returned? && !TokenIssued(s.token) ==>
                  outcome == Resolved(Err(ErrorMessage(s.token.value.error, TokenFailed, TokenFailed))))
            && (TokenIssued(s.token) ==>
                  outcome == Resolved(Ok(Embedded(run.result.value.envelopeUuid,
                                                  BuildEmbedSignUrl(env, s.token.value.data.value), signer)))))
  {
    calls := [];
    var ctx := GetClientAndWorkspace(env);
    if ctx.Err? {
      outcome := Resolved(Err(ctx.error));
      return;
    }
    var ws := ctx.value.workspaceUuid;

    var owner := GetOwnerEmail(env, s.owner);
    calls := calls + [Whoami];
    if owner.Err? {
      outcome := Resolved(Err(owner.error));
      return;
    }
    var signerEmail := owner.value;

    if !pdfExists {
      outcome := Resolved(Err(MissingPdf));
      return;
    }

    var result, bufferCalls := CreateEnvelopeFromBuffer(env, ws, envelopeTitle, signerEmail, s.buffer);
    calls := calls + bufferCalls;
    if result.Err? {
      outcome := Resolved(Err(result.error));
      return;
    }
    var envelopeUuid := result.value.envelopeUuid;

    calls := calls + [CreateIframeToken(ws, envelopeUuid, signerEmail)];
    if s.token.Threw? {
      outcome := Rejected(s.token.exception);
      return;
    }
    var tokenResponse := s.token.value;
    if Truthy(tokenResponse.error) || !Present(tokenResponse.data) {
      outcome := Resolved(Err(ErrorMessage(tokenResponse.error, TokenFailed, TokenFailed)));
      return;
    }
    outcome := Resolved(Ok(Embedded(envelopeUuid, BuildEmbedSignUrl(env, tokenResponse.data.value), signerEmail)));
  }
}

=== FILE: devis_demo.dfy ===
/** The quote page: the form-state updaters, the sample line items drawn from a fixed
    catalogue, and what the page does once the quote is sent for signature. */
module DevisDemo {
  import opened Values
  import opened Vendor
  import opened SubnotoClient
  import opened EmbedUrl
  import opened StorageEnvelopes
  import opened DevisTypes
  import opened CreateDevisEnvelope

  // ---------------------------------------------------------------------------
  // setField

  datatype Field =
    | QuoteNumber | QuoteDate | ValidityDate | ClientName | Company | Address | SignerEmail
    | LineItems | TaxRatePercent

  datatype FieldValue = Text(text: string) | Items(items: seq<LineItem>) | Number(number: real)

  /** The value has the type the field declares. */
  predicate Fits(key: Field, value: FieldValue)
  {
    match key
    case LineItems => value.Items?
    case TaxRatePercent => value.Number?
    case _ => value.Text?
  }

  function Get(data: DevisFormData, key: Field): (value: FieldValue)
    ensures Fits(key, value)
  {
    match key
    case QuoteNumber => Text(data.quoteNumber)
    case QuoteDate => Text(data.quoteDate)
    case ValidityDate => Text(data.validityDate)
    case ClientName => Text(data.clientName)
    case Company => Text(data.company)
    case Address => Text(data.address)
    case SignerEmail => Text(data.signerEmail)
    case LineItems => Items(data.lineItems)
    case TaxRatePercent => Number(data.taxRatePercent)
  }

  /** `{ ...prev, [key]: value }`. */
  function Put(data: DevisFormData, key: Field, value: FieldValue): DevisFormData
    requires Fits(key, value)
  {
    match key
    case QuoteNumber => data.(quoteNumber := value.text)
    case QuoteDate => data.(quoteDate := value.text)
    case ValidityDate => data.(validityDate := value.text)
    case ClientName => data.(clientName := value.text)
    case Company => data.(company := value.text)
    case Address => data.(address := value.text)
    case SignerEmail => data.(signerEmail := value.text)
    case LineItems => data.(lineItems := value.items)
    case TaxRatePercent => data.(taxRatePercent := value.number)
  }

  /** `setField(key, value)`: with no form yet nothing happens; otherwise exactly the
      one field takes the new value and every other field is kept. */
  function SetField(prev: Option<DevisFormData>, key: Field, value: FieldValue): (next: Option<DevisFormData>)
    requires Fits(key, value)
    ensures prev.None? ==> next.None?
    ensures prev.Some? ==> next.Some? && Get(next.value, key) == value
    ensures prev.Some? ==> forall other | other != key :: Get(next.value, other) == Get(prev.value, other)
  {
    if prev.None? then prev else Some(Put(prev.value, key, value))
  }

  /** Reading every field back identifies the form, so `SetField` changes nothing but
      `key`: two forms that agree on every field are equal. */
  lemma FieldsDetermineForm(a: DevisFormData, b: DevisFormData)
    requires forall key: Field :: Get(a, key) == Get(b, key)
    ensures a == b
  {
    assert Get(a, QuoteNumber) == Get(b, QuoteNumber);
    assert Get(a, QuoteDate) == Get(b, QuoteDate);
    assert Get(a, ValidityDate) == Get(b, ValidityDate);
    assert Get(a, ClientName) == Get(b, ClientName);
    assert Get(a, Company) == Get(b, Company);
    assert Get(a, Address) == Get(b, Address);
    assert Get(a, SignerEmail) == Get(b, SignerEmail);
    assert Get(a, LineItems) == Get(b, LineItems);
    assert Get(a, TaxRatePercent) == Get(b, TaxRatePercent);
  }

  /** Setting a field to the value it already has leaves the form as it was. */
  lemma SetFieldToCurrentValue(data: DevisFormData, key: Field)
    ensures SetField(Some(data), key, Get(data, key)) == Some(data)
  {
    FieldsDetermineForm(SetField(Some(data), key, Get(data, key)).value, data);
  }

  // ---------------------------------------------------------------------------
  // setLineItem, addLineItem, removeLineItem

  /** `Partial<DevisLineItem>`: each field may be left out. */
  datatype LineItemUpdate = LineItemUpdate(
    id: Option<string>, description: Option<string>, quantity: Option<real>,
    unitPrice: Option<real>, amount: Option<real>)

  function OrElse<T>(o: Option<T>, fallback: T): T
  {
    if o.Some? then o.value else fallback
  }

  /** `setLineItem(index, updates)`: the line at `index` takes each given field, keeps
      the others, and has its amount recomputed; any given `amount` is ignored. */
  function SetLineItem(prev: Option<DevisFormData>, index: int, updates: LineItemUpdate): (next: Option<DevisFormData>)
    ensures prev.None? || !(0 <= index < |prev.value.lineItems|) ==> next == prev
    ensures prev.Some? && 0 <= index < |prev.value.lineItems| ==>
      next.Some? &&
      var before, after := prev.value.lineItems, next.value.lineItems;
      && next.value.(lineItems := before) == prev.value
      && |after| == |before|
      && (forall j | 0 <= j < |before| && j != index :: after[j] == before[j])
      && after[index].id == OrElse(updates.id, before[index].id)
      && after[index].description == OrElse(updates.description, before[index].description)
      && after[index].quantity == OrElse(updates.quantity, before[index].quantity)
      && after[index].unitPrice == OrElse(updates.unitPrice, before[index].unitPrice)
      && after[index].amount == after[index].quantity * after[index].unitPrice
  {
    if prev.None? then prev
    else
      var next := prev.value.lineItems;
      if !(0 <= index < |next|) then prev
      else
        var current := next[index];
        var quantity := OrElse(updates.quantity, current.quantity);
        var unitPrice := OrElse(updates.unitPrice, current.unitPrice);
        var item := LineItem(OrElse(updates.id, current.id), OrElse(updates.description, current.description),
                             quantity, unitPrice, quantity * unitPrice);
        Some(prev.value.(lineItems := next[index := item]))
  }

  /** After `setLineItem` the subtotal moves by exactly the change in that line's amount. */
  lemma SetLineItemSubtotal(data: DevisFormData, index: nat, updates: LineItemUpdate)
    requires index < |data.lineItems|
    ensures var next := SetLineItem(Some(data), index, updates).value;
      ComputeDevisTotals(next).subtotal
        == ComputeDevisTotals(data).subtotal - data.lineItems[index].amount + next.lineItems[index].amount
  {
    var next := SetLineItem(Some(data), index, updates).value;
    SumUpdate(data.lineItems, index, next.lineItems[index]);
  }

  /** The blank line `addLineItem` appends. */
  function BlankLine(position: nat): (item: LineItem)
    ensures item.id == DecimalString(position) && item.description == ""
    ensures item.quantity == 1.0 && item.unitPrice == 0.0 && item.amount == 0.0
  {
    LineItem(DecimalString(position), "", 1.0, 0.0, 0.0)
  }

  /** `addLineItem()` as written: one blank line is appended, numbered one past the old
      length; everything before it is kept. */
  function AddLineItemAsWritten(prev: Option<DevisFormData>): (next: Option<DevisFormData>)
    ensures prev.None? ==> next.None?
    ensures prev.Some? ==>
      && next.Some? && next.value.(lineItems := prev.value.lineItems) == prev.value
      && |next.value.lineItems| == |prev.value.lineItems| + 1
      && next.value.lineItems[..|prev.value.lineItems|] == prev.value.lineItems
      && next.value.lineItems[|prev.value.lineItems|] == BlankLine(|prev.value.lineItems| + 1)
  {
    if prev.None? then prev
    else
      var items := prev.value.lineItems;
      assert (items + [BlankLine(|items| + 1)])[..|items|] == items;
      Some(prev.value.(lineItems := items + [BlankLine(|items| + 1)]))
  }

  /** The lines are numbered "1".."n" in order. */
  predicate NumberedInOrder(items: seq<LineItem>)
  {
    forall k | 0 <= k < |items| :: items[k].id == DecimalString(k + 1)
  }

  /** No two lines share an id (the ids are the rows' list keys). */
  predicate DistinctIds(items: seq<LineItem>)
  {
    forall i, j | 0 <= i < j < |items| :: items[i].id != items[j].id
  }

  /** Lines numbered in order have distinct ids. */
  lemma NumberedIdsDistinct(items: seq<LineItem>)
    requires NumberedInOrder(items)
    ensures DistinctIds(items)
  {
    forall i, j | 0 <= i < j < |items| ensures items[i].id != items[j].id {
      if items[i].id == items[j].id {
        DecimalStringInjective(i + 1, j + 1);
      }
    }
  }

  /** Adding a blank line leaves the subtotal as it was, whatever the form holds. */
  lemma AddLineItemSubtotal(data: DevisFormData)
    ensures ComputeDevisTotals(AddLineItemAsWritten(Some(data)).value).subtotal == ComputeDevisTotals(data).subtotal
    ensures ComputeDevisTotals(AddLineItem(Some(data)).value).subtotal == ComputeDevisTotals(data).subtotal
  {
    var items := data.lineItems;
    SumAppend(items, [BlankLine(|items| + 1)]);
    SumSingle(BlankLine(|items| + 1));
    SumAppend(items, [BlankLine(MaxIdNumber(items) + 1)]);
    SumSingle(BlankLine(MaxIdNumber(items) + 1));
  }

  /** On a form still numbered "1".."n", adding a line keeps the numbering (and so, by
      NumberedIdsDistinct, distinct ids). A removal other than of the last line breaks
      the numbering: see RemoveThenAddDuplicatesId. */
  lemma AddLineItemKeepsNumbering(data: DevisFormData)
    requires NumberedInOrder(data.lineItems)
    ensures NumberedInOrder(AddLineItemAsWritten(Some(data)).value.lineItems)
  {
    var items := data.lineItems;
    var nextItems := AddLineItemAsWritten(Some(data)).value.lineItems;
    forall k | 0 <= k < |nextItems| ensures nextItems[k].id == DecimalString(k + 1) {
      if k < |items| {
        assert nextItems[k] == items[k];
      }
    }
  }

  /** The defect of `addLineItem` as written: once a line other than the last has been
      removed, the new line reuses the id of the old last line. From ids "1","2","3",
      removing the middle line and adding one gives "1","3","3". */
  lemma RemoveThenAddDuplicatesId(data: DevisFormData, index: nat)
    requires 2 <= |data.lineItems| && index < |data.lineItems| - 1
    requires data.lineItems[|data.lineItems| - 1].id == DecimalString(|data.lineItems|)
    ensures var next := AddLineItemAsWritten(RemoveLineItem(Some(data), index)).value.lineItems;
      && |next| == |data.lineItems|
      && next[|next| - 2].id == next[|next| - 1].id
      && !DistinctIds(next)
  {
    var n := |data.lineItems|;
    var removed := RemoveLineItem(Some(data), index).value.lineItems;
    assert removed == data.lineItems[..index] + data.lineItems[index + 1..];
    assert removed[n - 2] == data.lineItems[n - 1];
    var next := AddLineItemAsWritten(RemoveLineItem(Some(data), index)).value.lineItems;
    assert next[n - 2] == removed[n - 2];
  }

  /** The numeric value of a line id; 0 for an id that is not a digit string. */
  function IdNumber(id: string): nat
  {
    if IsDigits(id) then DecimalValue(id) else 0
  }

  /** The largest numeric id among the lines (0 for none). */
  function MaxIdNumber(items: seq<LineItem>): (m: nat)
    ensures forall k | 0 <= k < |items| :: IdNumber(items[k].id) <= m
  {
    if items == [] then 0
    else
      var last := |items| - 1;
      var m := MaxIdNumber(items[..last]);
      assert forall k | 0 <= k < last :: items[..last][k] == items[k];
      if IdNumber(items[last].id) > m then IdNumber(items[last].id) else m
  }

  /** `addLineItem()` as intended: the new line is numbered one past the largest id in
      use, so it never takes the id of a line that is still there. */
  function AddLineItem(prev: Option<DevisFormData>): (next: Option<DevisFormData>)
    ensures prev.None? ==> next.None?
    ensures prev.Some? ==>
      && next.Some? && next.value.(lineItems := prev.value.lineItems) == prev.value
      && |next.value.lineItems| == |prev.value.lineItems| + 1
      && next.value.lineItems[..|prev.value.lineItems|] == prev.value.lineItems
      && next.value.lineItems[|prev.value.lineItems|] == BlankLine(MaxIdNumber(prev.value.lineItems) + 1)
  {
    if prev.None? then prev
    else
      var items := prev.value.lineItems;
      var blank := BlankLine(MaxIdNumber(items) + 1);
      assert (items + [blank])[..|items|] == items;
      Some(prev.value.(lineItems := items + [blank]))
  }

  /** The intended line's id differs from every id already on the form. */
  lemma AddLineItemFreshId(data: DevisFormData)
    ensures var items := data.lineItems;
      var next := AddLineItem(Some(data)).value.lineItems;
      forall k | 0 <= k < |items| :: next[k].id != next[|items|].id
  {
    var items := data.lineItems;
    var m := MaxIdNumber(items);
    var next := AddLineItem(Some(data)).value.lineItems;
    DecimalRoundTrip(m + 1);
    forall k | 0 <= k < |items| ensures next[k].id != next[|items|].id {
      assert next[k] == items[k];
      assert IdNumber(items[k].id) <= m;
    }
  }

  /** Adding a line as intended keeps the ids distinct. */
  lemma AddLineItemKeepsIdsDistinct(data: DevisFormData)
    requires DistinctIds(data.lineItems)
    ensures DistinctIds(AddLineItem(Some(data)).value.lineItems)
  {
    var items := data.lineItems;
    var next := AddLineItem(Some(data)).value.lineItems;
    AddLineItemFreshId(data);
    forall i, j | 0 <= i < j < |next| ensures next[i].id != next[j].id {
      if j < |items| {
        assert next[i] == items[i] && next[j] == items[j];
      }
    }
  }

  /** `lineItems.filter((_, i) => i !== index)`. */
  function WithoutIndex(items: seq<LineItem>, index: int): (kept: seq<LineItem>)
    ensures |kept| <= |items|
    ensures forall x | x in kept :: x in items
  {
    if items == [] then []
    else
      var last := |items| - 1;
      WithoutIndex(items[..last], index) + (if last != index then [items[last]] else [])
  }

  /** The filter drops exactly position `index` (nothing when it is out of range) and keeps
      the order of the rest. */
  lemma {:induction false} WithoutIndexDropsOne(items: seq<LineItem>, index: int)
    ensures 0 <= index < |items| ==> WithoutIndex(items, index) == items[..index] + items[index + 1..]
    ensures !(0 <= index < |items|) ==> WithoutIndex(items, index) == items
  {
    if items != [] {
      var last := |items| - 1;
      WithoutIndexDropsOne(items[..last], index);
      if 0 <= index < last {
        assert items[..last][..index] == items[..index];
        assert items[..last][index + 1..] + [items[last]] == items[index + 1..];
      } else if index == last {
        assert items[..last][..index] == items[..index];
      } else {
        assert items[..last] + [items[last]] == items;
      }
    }
  }

  /** `removeLineItem(index)`: a form with at most one line is left alone; otherwise
      the line at `index` is dropped. */
  function RemoveLineItem(prev: Option<DevisFormData>, index: int): (next: Option<DevisFormData>)
    ensures prev.None? || |prev.value.lineItems| <= 1 ==> next == prev
    ensures prev.Some? && |prev.value.lineItems| > 1 ==>
      && next.Some? && next.value.(lineItems := prev.value.lineItems) == prev.value
      && (0 <= index < |prev.value.lineItems| ==>
            next.value.lineItems == prev.value.lineItems[..index] + prev.value.lineItems[index + 1..])
      && (!(0 <= index < |prev.value.lineItems|) ==> next == prev)
  {
    if prev.None? || |prev.value.lineItems| <= 1 then prev
    else
      WithoutIndexDropsOne(prev.value.lineItems, index);
      Some(prev.value.(lineItems := WithoutIndex(prev.value.lineItems, index)))
  }

  /** A form that has a line keeps at least one, however lines are removed. */
  lemma RemoveKeepsOneLine(prev: Option<DevisFormData>, index: int)
    requires prev.Some? && |prev.value.lineItems| >= 1
    ensures var next := RemoveLineItem(prev, index);
      next.Some? && |next.value.lineItems| >= 1
      && |next.value.lineItems| >= |prev.value.lineItems| - 1
  {
  }

  /** Removing a line lowers the subtotal by that line's amount. */
  lemma RemoveLineItemSubtotal(data: DevisFormData, index: nat)
    requires 1 < |data.lineItems| && index < |data.lineItems|
    ensures ComputeDevisTotals(RemoveLineItem(Some(data), index).value).subtotal
         == ComputeDevisTotals(data).subtotal - data.lineItems[index].amount
  {
    SumRemove(data.lineItems, index);
  }

  /** Removing a line keeps the remaining ids distinct. */
  lemma RemoveKeepsIdsDistinct(data: DevisFormData, index: int)
    requires DistinctIds(data.lineItems)
    ensures DistinctIds(RemoveLineItem(Some(data), index).value.lineItems)
  {
    var items := data.lineItems;
    if |items| > 1 && 0 <= index < |items| {
      var next := RemoveLineItem(Some(data), index).value.lineItems;
      assert next == items[..index] + items[index + 1..];
      forall i, j | 0 <= i < j < |next| ensures next[i].id != next[j].id {
        var i', j' := if i < index then i else i + 1, if j < index then j else j + 1;
        assert next[i] == items[i'] && next[j] == items[j'];
      }
    }
  }

  /** Editing a line without giving an id keeps every id, so distinct ids stay distinct. */
  lemma SetLineItemKeepsIdsDistinct(data: DevisFormData, index: int, updates: LineItemUpdate)
    requires DistinctIds(data.lineItems) && updates.id.None?
    ensures DistinctIds(SetLineItem(Some(data), index, updates).value.lineItems)
  {
    var next := SetLineItem(Some(data), index, updates).value.lineItems;
    assert forall k | 0 <= k < |next| :: next[k].id == data.lineItems[k].id;
  }

  /** The edits the quote page makes to its form: its text and tax-rate inputs, the
      three inputs of a line (none of which gives an id), and the add and remove buttons. */
  datatype PageEdit =
    | EditText(key: Field, text: string)
    | EditTaxRate(rate: real)
    | EditDescription(line: int, description: string)
    | EditQuantity(line: int, quantity: real)
    | EditUnitPrice(line: int, unitPrice: real)
    | AddLine
    | RemoveLine(line: int)

  const NoUpdate := LineItemUpdate(None, None, None, None, None)

  /** One edit, with `addLineItem` as intended. */
  function ApplyEdit(prev: Option<DevisFormData>, e: PageEdit): (next: Option<DevisFormData>)
    ensures next.Some? <==> prev.Some?
  {
    match e
    case EditText(key, text) => if Fits(key, Text(text)) then SetField(prev, key, Text(text)) else prev
    case EditTaxRate(rate) => SetField(prev, TaxRatePercent, Number(rate))
    case EditDescription(line, description) => SetLineItem(prev, line, NoUpdate.(description := Some(description)))
    case EditQuantity(line, quantity) => SetLineItem(prev, line, NoUpdate.(quantity := Some(quantity)))
    case EditUnitPrice(line, unitPrice) => SetLineItem(prev, line, NoUpdate.(unitPrice := Some(unitPrice)))
    case AddLine => AddLineItem(prev)
    case RemoveLine(line) => RemoveLineItem(prev, line)
  }

  /** A sequence of edits, applied in order. */
  function ApplyEdits(prev: Option<DevisFormData>, edits: seq<PageEdit>): (next: Option<DevisFormData>)
    ensures next.Some? <==> prev.Some?
  {
    if edits == [] then prev else ApplyEdit(ApplyEdits(prev, edits[..|edits| - 1]), edits[|edits| - 1])
  }

  /** Every edit keeps the ids of a form distinct. */
  lemma ApplyEditKeepsIdsDistinct(data: DevisFormData, e: PageEdit)
    requires DistinctIds(data.lineItems)
    ensures ApplyEdit(Some(data), e).Some? && DistinctIds(ApplyEdit(Some(data), e).value.lineItems)
  {
    match e
    case EditText(key, text) =>
    case EditTaxRate(rate) =>
    case EditDescription(line, description) =>
      SetLineItemKeepsIdsDistinct(data, line, NoUpdate.(description := Some(description)));
    case EditQuantity(line, quantity) =>
      SetLineItemKeepsIdsDistinct(data, line, NoUpdate.(quantity := Some(quantity)));
    case EditUnitPrice(line, unitPrice) =>
      SetLineItemKeepsIdsDistinct(data, line, NoUpdate.(unitPrice := Some(unitPrice)));
    case AddLine => AddLineItemKeepsIdsDistinct(data);
    case RemoveLine(line) => RemoveKeepsIdsDistinct(data, line);
  }

  /** Every form the page reaches from one with distinct ids (the one-line default form,
      or a sample form, see DummyLinesIdsDistinct) has distinct ids, whatever the edits. */
  lemma {:induction false} EditsKeepIdsDistinct(data: DevisFormData, edits: seq<PageEdit>)
    requires DistinctIds(data.lineItems)
    ensures ApplyEdits(Some(data), edits).Some? && DistinctIds(ApplyEdits(Some(data), edits).value.lineItems)
  {
    if edits != [] {
      var n := |edits| - 1;
      EditsKeepIdsDistinct(data, edits[..n]);
      ApplyEditKeepsIdsDistinct(ApplyEdits(Some(data), edits[..n]).value, edits[n]);
    }
  }

  // ---------------------------------------------------------------------------
  // dummyFormData's line items

  /** `Math.floor(r * (max - min + 1)) + min`, for a draw `r` of `Math.random()`. */
  function RandomInt(r: real, min: int, max: int): int
  {
    (r * (max - min + 1) as real).Floor + min
  }

  /** A draw in [0, 1) gives an integer in [min, max]. */
  lemma RandomIntInRange(r: real, min: int, max: int)
    requires 0.0 <= r < 1.0 && min <= max
    ensures min <= RandomInt(r, min, max) <= max
  {
    var width := (max - min + 1) as real;
    assert 0.0 <= r * width < width;
  }

  datatype CatalogueEntry = CatalogueEntry(desc: string, min: int, max: int)

  const Catalogue: seq<CatalogueEntry> := [
    CatalogueEntry("Web development", 800, 3000),
    CatalogueEntry("Interface design", 400, 1200),
    CatalogueEntry("API integration", 500, 2000),
    CatalogueEntry("Training", 300, 800),
    CatalogueEntry("Annual maintenance", 1200, 3600)
  ]

  /** Line `k` of a sample quote, drawn from catalogue entry `pick`: numbered `k + 1`,
      described as the entry, priced within the entry's range, quantity 1 to 3, and
      amount = quantity × unit price. */
  predicate DrawnLine(item: LineItem, k: nat, pick: nat)
  {
    && pick < |Catalogue|
    && item.id == DecimalString(k + 1)
    && item.description == Catalogue[pick].desc
    && Catalogue[pick].min as real <= item.unitPrice <= Catalogue[pick].max as real
    && item.quantity in {1.0, 2.0, 3.0}
    && item.amount == item.quantity * item.unitPrice
  }

  predicate Draws(draws: seq<real>)
  {
    forall i | 0 <= i < |draws| :: 0.0 <= draws[i] < 1.0
  }

  lemma CatalogueDescriptionsDistinct(p: nat, q: nat)
    requires p < |Catalogue| && q < |Catalogue| && p != q
    ensures Catalogue[p].desc != Catalogue[q].desc
  {
  }

  /** The line-item loop of `dummyFormData` from a given state, consuming `Math.random()`
      draws in call order: per attempt a catalogue index and, for an unused index, a
      quantity and a unit price. `None` when the draws run out first. */
  function DummyFrom(draws: seq<real>, count: int, next: nat, used: set<int>, items: seq<LineItem>): Option<seq<LineItem>>
    requires Draws(draws) && next <= |draws|
    decreases |draws| - next
  {
    if |items| >= count then Some(items)
    else if next == |draws| then None
    else
      RandomIntInRange(draws[next], 0, |Catalogue| - 1);
      var i := RandomInt(draws[next], 0, |Catalogue| - 1);
      if i in used then DummyFrom(draws, count, next + 1, used, items)
      else if next + 2 >= |draws| then None
      else
        var it := Catalogue[i];
        var qty := RandomInt(draws[next + 1], 1, 3);
        var unitPrice := RandomInt(draws[next + 2], it.min, it.max);
        var item := LineItem(DecimalString(|items| + 1), it.desc, qty as real, unitPrice as real, (qty * unitPrice) as real);
        DummyFrom(draws, count, next + 3, used + {i}, items + [item])
  }

  /** The sample line items: the first draw fixes the count, the loop runs from there. */
  function DummyLines(draws: seq<real>): Option<seq<LineItem>>
    requires Draws(draws)
  {
    if |draws| == 0 then None else DummyFrom(draws, RandomInt(draws[0], 2, 4), 1, {}, [])
  }

  /** Every step of the loop keeps the lines drawn from distinct entries, so a finished
      loop holds exactly `count` such lines. */
  lemma {:induction false} DummyFromShape(draws: seq<real>, count: int, next: nat, used: set<int>,
                                          items: seq<LineItem>, picks: seq<nat>) returns (allPicks: seq<nat>)
    requires Draws(draws) && next <= |draws|
    requires |items| <= count && |picks| == |items|
    requires forall k | 0 <= k < |picks| :: picks[k] as int in used
    requires forall i, j | 0 <= i < j < |picks| :: picks[i] != picks[j]
    requires forall k | 0 <= k < |items| :: DrawnLine(items[k], k, picks[k])
    requires DummyFrom(draws, count, next, used, items).Some?
    ensures var lines := DummyFrom(draws, count, next, used, items).value;
      && |lines| == count && |allPicks| == count
      && (forall k | 0 <= k < count :: DrawnLine(lines[k], k, allPicks[k]))
      && (forall i, j | 0 <= i < j < count :: allPicks[i] != allPicks[j])
    decreases |draws| - next
  {
    if |items| >= count {
      allPicks := picks;
    } else {
      RandomIntInRange(draws[next], 0, |Catalogue| - 1);
      var i := RandomInt(draws[next], 0, |Catalogue| - 1);
      if i in used {
        allPicks := DummyFromShape(draws, count, next + 1, used, items, picks);
      } else {
        var it := Catalogue[i];
        RandomIntInRange(draws[next + 1], 1, 3);
        RandomIntInRange(draws[next + 2], it.min, it.max);
        var qty := RandomInt(draws[next + 1], 1, 3);
        var unitPrice := RandomInt(draws[next + 2], it.min, it.max);
        var item := LineItem(DecimalString(|items| + 1), it.desc, qty as real, unitPrice as real, (qty * unitPrice) as real);
        assert DrawnLine(item, |items|, i) by {
          assert qty == 1 || qty == 2 || qty == 3;
        }
        allPicks := DummyFromShape(draws, count, next + 3, used + {i}, items + [item], picks + [i]);
      }
    }
  }

  /** A sample quote has 2 to 4 lines, numbered "1".."n", drawn from distinct catalogue
      entries, so no description repeats; each is priced within its entry's range. */
  lemma DummyLinesShape(draws: seq<real>) returns (picks: seq<nat>)
    requires Draws(draws) && DummyLines(draws).Some?
    ensures var items := DummyLines(draws).value;
      && 2 <= |items| <= 4 && |picks| == |items|
      && (forall k | 0 <= k < |items| :: DrawnLine(items[k], k, picks[k]))
      && (forall i, j | 0 <= i < j < |items| :: picks[i] != picks[j] && items[i].description != items[j].description)
  {
    RandomIntInRange(draws[0], 2, 4);
    picks := DummyFromShape(draws, RandomInt(draws[0], 2, 4), 1, {}, [], []);
    var items := DummyLines(draws).value;
    forall i, j | 0 <= i < j < |items| ensures items[i].description != items[j].description {
      CatalogueDescriptionsDistinct(picks[i], picks[j]);
    }
  }

  /** The sample lines are numbered "1".."n", so their ids are distinct. */
  lemma DummyLinesIdsDistinct(draws: seq<real>)
    requires Draws(draws) && DummyLines(draws).Some?
    ensures NumberedInOrder(DummyLines(draws).value) && DistinctIds(DummyLines(draws).value)
  {
    var picks := DummyLinesShape(draws);
    NumberedIdsDistinct(DummyLines(draws).value);
  }

  /** The line-item loop of `dummyFormData`: the count first, then attempts until that
      many distinct entries have been drawn. */
  method DummyLineItems(draws: seq<real>) returns (lineItems: Option<seq<LineItem>>)
    requires Draws(draws)
    ensures lineItems == DummyLines(draws)
  {
    if |draws| == 0 {
      return None;
    }
    var count := RandomInt(draws[0], 2, 4);
    var next := 1;
    var used: set<int> := {};
    var items: seq<LineItem> := [];
    while |items| < count
      invariant 1 <= next <= |draws|
      invariant DummyFrom(draws, count, next, used, items) == DummyLines(draws)
      decreases |draws| - next
    {
      if next >= |draws| {
        return None;
      }
      RandomIntInRange(draws[next], 0, |Catalogue| - 1);
      var i := RandomInt(draws[next], 0, |Catalogue| - 1);
      next := next + 1;
      if i in used {
        continue;
      }
      used := used + {i};
      // `items[i]` is always defined here, as `i` lies in [0, 4].
      var it := Catalogue[i];
      if next + 1 >= |draws| {
        return None;
      }
      var qty := RandomInt(draws[next], 1, 3);
      var unitPrice := RandomInt(draws[next + 1], it.min, it.max);
      next := next + 2;
      items := items + [LineItem(DecimalString(|items| + 1), it.desc, qty as real, unitPrice as real, (qty * unitPrice) as real)];
    }
    lineItems := Some(items);
  }

  // ---------------------------------------------------------------------------
  // Sending the quote for signature

  const QuoteTitlePrefix: string := "Quote – "

  /** `Quote – ${data.clientName || data.quoteNumber}`: the envelope is named after the
      client, or after the quote number when no client name is filled in. */
  function QuoteTitle(data: DevisFormData): (title: string)
    ensures StartsWith(title, QuoteTitlePrefix)
    ensures data.clientName != "" ==> title[|QuoteTitlePrefix|..] == data.clientName
    ensures data.clientName == "" ==> title[|QuoteTitlePrefix|..] == data.quoteNumber
  {
    QuoteTitlePrefix + (if data.clientName != "" then data.clientName else data.quoteNumber)
  }

  /** Reading a property of the object `createEnvelopeFromDevisPdf` resolves to: it has
      exactly `envelopeUuid`, `iframeToken` and `host`. */
  function Property(created: DevisCreated, name: string): (value: Option<string>)
    ensures value.Some? <==> name in {"envelopeUuid", "iframeToken", "host"}
  {
    if name == "envelopeUuid" then Some(created.envelopeUuid)
    else if name == "iframeToken" then Some(created.iframeToken)
    else if name == "host" then Some(created.host)
    else None
  }

  /** The page reads `result.iframeUrl`, which the action never returns. */
  lemma IframeUrlIsNeverReturned(created: DevisCreated)
    ensures Property(created, "iframeUrl") == None
  {
  }

  /** The signing URL built from what the action does return. */
  function SigningUrl(created: DevisCreated): string
  {
    created.host + EmbedSignPath + TokenMarker + created.iframeToken
  }

  /** The signing URL carries the returned token after the fragment marker. */
  lemma SigningUrlCarriesToken(created: DevisCreated)
    ensures TokenOf(created.host, SigningUrl(created)) == Some(created.iframeToken)
  {
    var prefix := SignUrlPrefix(created.host);
    assert SigningUrl(created) == prefix + created.iframeToken;
    assert SigningUrl(created)[..|prefix|] == prefix;
    assert SigningUrl(created)[|prefix|..] == created.iframeToken;
  }

  /** With the configured embed host, the signing URL is the one every other flow builds. */
  lemma SigningUrlMatchesEmbedUrl(env: Env, created: DevisCreated)
    requires created.host == EmbedBaseUrl(env)
    ensures SigningUrl(created) == BuildEmbedSignUrl(env, created.iframeToken)
  {
  }

  /** The page's state. */
  class DevisPage {
    var data: Option<DevisFormData>
    var error: Option<string>
    var iframeUrl: Option<string>
    var envelopeUuid: Option<string>
    const storage: BrowserStorage

    constructor (storage: BrowserStorage, data: Option<DevisFormData>)
      ensures this.storage == storage && this.data == data
      ensures error.None? && iframeUrl.None? && envelopeUuid.None?
    {
      this.storage := storage;
      this.data := data;
      error, iframeUrl, envelopeUuid := None, None, None;
    }

    /** The signing view replaces the form once both values are set. */
    predicate ShowsSigning()
      reads this
    {
      Present(iframeUrl) && Present(envelopeUuid)
    }

    /** `handleSendForSignature` as written: on success it stores `result.iframeUrl`,
        which is undefined, so the signing view never appears. The PDF is encoded with
        `btoa`, so decoding it always succeeds. */
    method HandleSendForSignatureAsWritten(env: Env, s: DevisScript, now: int)
      modifies this, storage
      ensures data == old(data)
      ensures old(data).None? ==>
        error == old(error) && iframeUrl == old(iframeUrl)
        && envelopeUuid == old(envelopeUuid) && storage.stored == old(storage.stored)
      ensures old(data).Some? ==>
        var result := DevisOutcome(env, true, QuoteTitle(old(data).value), s);
        && (result.Err? ==>
              error == Some(result.error) && iframeUrl == old(iframeUrl)
              && envelopeUuid == old(envelopeUuid) && storage.stored == old(storage.stored))
        && (result.Ok? ==>
              && error.None? && envelopeUuid == Some(result.value.envelopeUuid)
              && iframeUrl.None? && !ShowsSigning()
              && storage.stored == AfterSave(old(storage.stored), result.value.envelopeUuid, None, now))
    {
      if data.None? {
        return;
      }
      error := None;
      var title := QuoteTitle(data.value);
      var result, _ := CreateEnvelopeFromDevisPdf(env, true, title, s);
      if result.Err? {
        error := Some(result.error);
        return;
      }
      storage.SaveEnvelope(result.value.envelopeUuid, None, now);
      envelopeUuid := Some(result.value.envelopeUuid);
      iframeUrl := Property(result.value, "iframeUrl");
    }

    /** `handleSendForSignature` as evidently intended: the signing URL is built from
        the returned host and token, so a successful send opens the signing view. */
    method HandleSendForSignature(env: Env, s: DevisScript, now: int)
      modifies this, storage
      ensures data == old(data)
      ensures old(data).None? ==>
        error == old(error) && iframeUrl == old(iframeUrl)
        && envelopeUuid == old(envelopeUuid) && storage.stored == old(storage.stored)
      ensures old(data).Some? ==>
        var result := DevisOutcome(env, true, QuoteTitle(old(data).value), s);
        && (result.Err? ==>
              error == Some(result.error) && iframeUrl == old(iframeUrl)
              && envelopeUuid == old(envelopeUuid) && storage.stored == old(storage.stored))
        && (result.Ok? ==>
              && error.None? && envelopeUuid == Some(result.value.envelopeUuid)
              && iframeUrl == Some(BuildEmbedSignUrl(env, result.value.iframeToken))
              && (result.value.envelopeUuid != "" ==> ShowsSigning())
              && storage.stored == AfterSave(old(storage.stored), result.value.envelopeUuid, None, now))
    {
      if data.None? {
        return;
      }
      error := None;
      var title := QuoteTitle(data.value);
      var result, _ := CreateEnvelopeFromDevisPdf(env, true, title, s);
      if result.Err? {
        error := Some(result.error);
        return;
      }
      storage.SaveEnvelope(result.value.envelopeUuid, None, now);
      envelopeUuid := Some(result.value.envelopeUuid);
      SigningUrlMatchesEmbedUrl(env, result.value);
      iframeUrl := Some(SigningUrl(result.value));
    }
  }
}

=== FILE: devis_pdf_document.dfy ===
/** The quote PDF: what it shows, and the Smart Anchor text that tells the vendor where
    the signer signs. Layout, fonts and currency formatting are not modelled. */
module DevisPdfDocument {
  import opened Values
  import opened DevisTypes

  const AnchorOpen: string := "{{ "
  const AnchorClose: string := " | signature | 180 | 60 }}"
  const Separator: string := " | "

  /** `getSmartAnchor(signerEmail)`: a signature field, 180 by 60, for that signer. */
  function GetSmartAnchor(signerEmail: string): (anchor: string)
    ensures |anchor| == |AnchorOpen| + |signerEmail| + |AnchorClose|
    ensures anchor[..|AnchorOpen|] == AnchorOpen
    ensures anchor[|AnchorOpen|..|AnchorOpen| + |signerEmail|] == signerEmail
    ensures anchor[|AnchorOpen| + |signerEmail|..] == AnchorClose
  {
    var anchor := AnchorOpen + signerEmail + AnchorClose;
    assert anchor[|AnchorOpen|..|AnchorOpen| + |signerEmail|] == signerEmail;
    anchor
  }

  /** Reads the e-mail back out of an anchor. */
  function EmailOfAnchor(anchor: string): Option<string>
  {
    if |anchor| >= |AnchorOpen| + |AnchorClose|
       && anchor[..|AnchorOpen|] == AnchorOpen && anchor[|anchor| - |AnchorClose|..] == AnchorClose
    then Some(anchor[|AnchorOpen|..|anchor| - |AnchorClose|])
    else None
  }

  /** The e-mail can be read back from the anchor. */
  lemma AnchorRoundTrip(signerEmail: string)
    ensures EmailOfAnchor(GetSmartAnchor(signerEmail)) == Some(signerEmail)
  {
  }

  /** Distinct signers get distinct anchors. */
  lemma AnchorInjective(e1: string, e2: string)
    requires GetSmartAnchor(e1) == GetSmartAnchor(e2)
    ensures e1 == e2
  {
    AnchorRoundTrip(e1);
    AnchorRoundTrip(e2);
  }

  /** An address without spaces or bars: the characters the separator is made of. */
  predicate PlainAddress(email: string)
  {
    forall i | 0 <= i < |email| :: email[i] != ' ' && email[i] != '|'
  }

  /** For such an address the first `" | "` of the anchor comes right after the e-mail,
      so the e-mail is exactly what lies between `"{{ "` and the first separator. */
  lemma FirstSeparatorFollowsEmail(signerEmail: string)
    requires PlainAddress(signerEmail)
    ensures var anchor := GetSmartAnchor(signerEmail);
      && OccursAt(anchor, Separator, |AnchorOpen| + |signerEmail|)
      && forall i | 0 <= i < |AnchorOpen| + |signerEmail| :: !OccursAt(anchor, Separator, i)
  {
    var anchor := GetSmartAnchor(signerEmail);
    var n := |AnchorOpen| + |signerEmail|;
    assert anchor[n..n + 3] == AnchorClose[..3];
    forall i | 0 <= i < n ensures !OccursAt(anchor, Separator, i) {
      if i + 3 <= |anchor| {
        assert anchor[i..i + 3][1] == anchor[i + 1];
        if i + 1 < |AnchorOpen| {
          assert anchor[i + 1] == AnchorOpen[i + 1];
        } else if i + 1 < n {
          assert anchor[i + 1] == signerEmail[i + 1 - |AnchorOpen|];
        } else {
          assert anchor[i + 1] == AnchorClose[0];
        }
      }
    }
  }

  /** One row of the items table. */
  datatype Row = Row(description: string, quantity: real, unitPrice: real, amount: real)

  /** What the document shows, apart from layout. */
  datatype Document = Document(
    quoteNumber: string, quoteDate: string, validityDate: string,
    clientBlock: seq<string>, rows: seq<Row>,
    subtotal: real, taxRatePercent: real, taxAmount: real, total: real,
    anchor: string)

  function RowOf(item: LineItem): Row
  {
    Row(item.description, item.quantity, item.unitPrice, item.amount)
  }

  function Rows(items: seq<LineItem>): (rows: seq<Row>)
    ensures |rows| == |items|
    ensures forall k | 0 <= k < |items| :: rows[k] == RowOf(items[k])
  {
    if items == [] then [] else [RowOf(items[0])] + Rows(items[1..])
  }

  /** `DevisPdfDocument({ data })`: the client block shows the company and the address
      only when they are non-empty. */
  function DevisDocument(data: DevisFormData): (doc: Document)
    ensures doc.anchor == GetSmartAnchor(data.signerEmail)
    ensures |doc.rows| == |data.lineItems|
    ensures |doc.clientBlock| == 2 + (if data.company != "" then 1 else 0) + (if data.address != "" then 1 else 0)
    ensures doc.clientBlock[0] == data.clientName && doc.clientBlock[|doc.clientBlock| - 1] == data.signerEmail
    ensures data.company != "" ==> doc.clientBlock[1] == data.company
    ensures data.address != "" ==> doc.clientBlock[|doc.clientBlock| - 2] == data.address
    ensures forall k | 0 <= k < |data.lineItems| :: doc.rows[k] == RowOf(data.lineItems[k])
    ensures doc.quoteNumber == data.quoteNumber && doc.taxRatePercent == data.taxRatePercent
  {
    var totals := ComputeDevisTotals(data);
    Document(data.quoteNumber, data.quoteDate, data.validityDate,
             [data.clientName] + (if data.company != "" then [data.company] else [])
               + (if data.address != "" then [data.address] else []) + [data.signerEmail],
             Rows(data.lineItems),
             totals.subtotal, data.taxRatePercent, totals.taxAmount, totals.total,
             GetSmartAnchor(data.signerEmail))
  }

  /** The sum of the amounts the table shows. */
  function ShownAmounts(rows: seq<Row>): real
  {
    if rows == [] then 0.0 else rows[0].amount + ShownAmounts(rows[1..])
  }

  /** The document's totals agree with its own table, and its anchor names the
      form's signer. */
  lemma {:induction false} DocumentIsConsistent(data: DevisFormData)
    ensures var doc := DevisDocument(data);
      && doc.subtotal == ShownAmounts(doc.rows)
      && doc.total == doc.subtotal + doc.subtotal * doc.taxRatePercent / 100.0
      && EmailOfAnchor(doc.anchor) == Some(data.signerEmail)
  {
    SumFoldsAgree(data.lineItems);
    RowsShowAmounts(data.lineItems);
    AnchorRoundTrip(data.signerEmail);
  }

  lemma {:induction false} RowsShowAmounts(items: seq<LineItem>)
    ensures ShownAmounts(Rows(items)) == SumFromFront(items)
  {
    if items != [] {
      RowsShowAmounts(items[1..]);
      assert Rows(items)[1..] == Rows(items[1..]);
    }
  }
}

=== FILE: devis_types.dfy ===
/** The quote ("devis") form's data and its totals. Amounts are exact reals. */
module DevisTypes {

  datatype LineItem = LineItem(id: string, description: string, quantity: real, unitPrice: real, amount: real)

  datatype DevisFormData = DevisFormData(
    quoteNumber: string,
    quoteDate: string,
    validityDate: string,
    clientName: string,
    company: string,
    address: string,
    signerEmail: string,
    lineItems: seq<LineItem>,
    taxRatePercent: real)

  datatype Totals = Totals(subtotal: real, taxAmount: real, total: real)

  /** `lineItems.reduce((sum, item) => sum + item.amount, 0)`: a left fold. */
  function SumAmounts(items: seq<LineItem>): real
  {
    if items == [] then 0.0 else SumAmounts(items[..|items| - 1]) + items[|items| - 1].amount
  }

  /** An independent definition of the same sum, folding from the front. */
  function SumFromFront(items: seq<LineItem>): real
  {
    if items == [] then 0.0 else items[0].amount + SumFromFront(items[1..])
  }

  /** `computeDevisTotals(data)`. */
  function ComputeDevisTotals(data: DevisFormData): (t: Totals)
    ensures t.total == t.subtotal * (1.0 + data.taxRatePercent / 100.0)
    ensures data.lineItems == [] ==> t == Totals(0.0, 0.0, 0.0)
  {
    var subtotal := SumAmounts(data.lineItems);
    var taxAmount := (subtotal * data.taxRatePercent) / 100.0;
    Totals(subtotal, taxAmount, subtotal + taxAmount)
  }

  /** The fold splits over concatenation. */
  lemma {:induction false} SumAppend(a: seq<LineItem>, b: seq<LineItem>)
    ensures SumAmounts(a + b) == SumAmounts(a) + SumAmounts(b)
    decreases |b|
  {
    if b == [] {
      assert a + b == a;
    } else {
      var n := |b| - 1;
      assert (a + b)[..|a + b| - 1] == a + b[..n];
      SumAppend(a, b[..n]);
    }
  }

  /** The left fold equals the sum taken from the front. */
  lemma {:induction false} SumFoldsAgree(items: seq<LineItem>)
    ensures SumAmounts(items) == SumFromFront(items)
  {
    if items != [] {
      SumFoldsAgree(items[1..]);
      SumAppend([items[0]], items[1..]);
      assert [items[0]] + items[1..] == items;
      assert [items[0]][..0] == [];
    }
  }

  /** The subtotal is the sum of the amounts; tax and total follow from it. */
  lemma TotalsFromAmounts(data: DevisFormData)
    ensures var t := ComputeDevisTotals(data);
      && t.subtotal == SumFromFront(data.lineItems)
      && t.taxAmount == t.subtotal * data.taxRatePercent / 100.0
      && t.total == t.subtotal + t.taxAmount
  {
    SumFoldsAgree(data.lineItems);
  }

  /** At a rate of zero the total is the subtotal. */
  lemma ZeroRateTotalIsSubtotal(data: DevisFormData)
    requires data.taxRatePercent == 0.0
    ensures ComputeDevisTotals(data).total == ComputeDevisTotals(data).subtotal
  {
  }

  /** Non-negative amounts have a non-negative sum. */
  lemma {:induction false} SumNonNegative(items: seq<LineItem>)
    requires forall i | 0 <= i < |items| :: items[i].amount >= 0.0
    ensures SumAmounts(items) >= 0.0
  {
    if items != [] {
      SumNonNegative(items[..|items| - 1]);
    }
  }

  /** With non-negative amounts and rate, 0 <= subtotal <= total. */
  lemma TotalsOrdered(data: DevisFormData)
    requires forall i | 0 <= i < |data.lineItems| :: data.lineItems[i].amount >= 0.0
    requires data.taxRatePercent >= 0.0
    ensures 0.0 <= ComputeDevisTotals(data).subtotal <= ComputeDevisTotals(data).total
  {
    SumNonNegative(data.lineItems);
  }

  /** A single line sums to its own amount. */
  lemma SumSingle(item: LineItem)
    ensures SumAmounts([item]) == item.amount
  {
    assert [item][..0] == [];
  }

  /** The sum around one line: the lines before it, its amount, the lines after it. */
  lemma SumAround(before: seq<LineItem>, x: LineItem, after: seq<LineItem>)
    ensures SumAmounts(before + [x] + after) == SumAmounts(before) + x.amount + SumAmounts(after)
  {
    SumAppend(before + [x], after);
    SumAppend(before, [x]);
    SumSingle(x);
  }

  /** A list is the lines before position `i`, line `i`, and the lines after it. */
  lemma SplitAt(items: seq<LineItem>, i: nat)
    requires i < |items|
    ensures items == items[..i] + [items[i]] + items[i + 1..]
  {
    assert items[i..] == [items[i]] + items[i + 1..];
    assert items == items[..i] + items[i..];
  }

  /** Replacing one line changes the subtotal by the difference of the two amounts. */
  lemma SumUpdate(items: seq<LineItem>, i: nat, item: LineItem)
    requires i < |items|
    ensures SumAmounts(items[i := item]) == SumAmounts(items) - items[i].amount + item.amount
  {
    var before, after := items[..i], items[i + 1..];
    SplitAt(items, i);
    SplitAt(items[i := item], i);
    assert items[i := item][..i] == before && items[i := item][i + 1..] == after;
    SumAround(before, items[i], after);
    SumAround(before, item, after);
  }

  /** Removing one line lowers the subtotal by its amount. */
  lemma SumRemove(items: seq<LineItem>, i: nat)
    requires i < |items|
    ensures SumAmounts(items[..i] + items[i + 1..]) == SumAmounts(items) - items[i].amount
  {
    var before, after := items[..i], items[i + 1..];
    SplitAt(items, i);
    SumAround(before, items[i], after);
    SumAppend(before, after);
  }
}

=== FILE: embed_url.dfy ===
/** The embeddable signing URL: the iframe token travels in the URL fragment, after `#t=`. */
module EmbedUrl {
  import opened Values
  import opened SubnotoClient

  const DefaultEmbedBaseUrl: string := "https://app.subnoto.com"
  const EmbedSignPath: string := "/embeds/sign"
  const TokenMarker: string := "#t="

  /** `process.env.SUBNOTO_EMBED_BASE_URL ?? "https://app.subnoto.com"`: only an unset
      variable falls back to the default; an empty one is kept. */
  function EmbedBaseUrl(env: Env): (base: string)
    ensures SubnotoEmbedBaseUrl !in env ==> base == DefaultEmbedBaseUrl
    ensures SubnotoEmbedBaseUrl in env ==> base == env[SubnotoEmbedBaseUrl]
  {
    match Lookup(env, SubnotoEmbedBaseUrl)
    case Some(v) => v
    case None => DefaultEmbedBaseUrl
  }

  /** Everything in a signing URL that comes before the token. */
  function SignUrlPrefix(base: string): string
  {
    base + EmbedSignPath + TokenMarker
  }

  function BuildEmbedSignUrl(env: Env, iframeToken: string): (url: string)
    ensures url == EmbedBaseUrl(env) + "/embeds/sign" + "#t=" + iframeToken
  {
    SignUrlPrefix(EmbedBaseUrl(env)) + iframeToken
  }

  /** Reads the token back out of a signing URL built on `base`. */
  function TokenOf(base: string, url: string): Option<string>
  {
    var prefix := SignUrlPrefix(base);
    if StartsWith(url, prefix) then Some(url[|prefix|..]) else None
  }

  /** The token can be recovered from the URL: it is exactly what follows the
      fixed prefix `base/embeds/sign#t=`, so it sits after the fragment marker
      and forms no part of the path. */
  lemma TokenRoundTrip(env: Env, iframeToken: string)
    ensures TokenOf(EmbedBaseUrl(env), BuildEmbedSignUrl(env, iframeToken)) == Some(iframeToken)
  {
    var prefix := SignUrlPrefix(EmbedBaseUrl(env));
    var url := BuildEmbedSignUrl(env, iframeToken);
    assert url[..|prefix|] == prefix;
    assert url[|prefix|..] == iframeToken;
  }

  /** The URL ends with the token, and what precedes it ends with the `#t=` marker. */
  lemma {:induction false} TokenIsFragmentSuffix(env: Env, iframeToken: string)
    ensures var url := BuildEmbedSignUrl(env, iframeToken);
      && |url| >= |iframeToken| + 3
      && url[|url| - |iframeToken|..] == iframeToken
      && url[|url| - |iframeToken| - 3..|url| - |iframeToken|] == TokenMarker
  {
    var url := BuildEmbedSignUrl(env, iframeToken);
    var prefix := SignUrlPrefix(EmbedBaseUrl(env));
    assert url == prefix + iframeToken;
    assert prefix[|prefix| - 3..] == TokenMarker;
    assert url[|url| - |iframeToken| - 3..|url| - |iframeToken|] == prefix[|prefix| - 3..];
  }

  /** For one configuration, distinct tokens give distinct URLs. */
  lemma BuildEmbedSignUrlInjective(env: Env, t1: string, t2: string)
    requires BuildEmbedSignUrl(env, t1) == BuildEmbedSignUrl(env, t2)
    ensures t1 == t2
  {
    TokenRoundTrip(env, t1);
    TokenRoundTrip(env, t2);
  }
}

=== FILE: envelope_status.dfy ===
/** Looking up an envelope's current status. */
module EnvelopeStatus {
  import opened Values
  import opened Vendor
  import opened SubnotoClient

  /** The statuses the vendor documents; the action passes the reported string through
      without checking it against this list. */
  const KnownStatuses: seq<string> := ["uploading", "draft", "approving", "signing", "complete", "declined", "canceled"]

  const EnvelopeNotFound: string := "Envelope not found"
  const GetEnvelopeFailed: string := "Failed to get envelope"
  const GetStatusFailed: string := "Failed to get envelope status"

  /** `getEnvelopeStatus(envelopeUuid)`, given what the `envelope/get` call did; the
      call's `data` is the reported `status` field. */
  function GetEnvelopeStatus(env: Env, envelopeUuid: string, reply: Call<Response<string>>): (r: Result<string>)
    ensures !Configured(env) ==> r == Err(MissingEnvMessage)
    ensures r.Ok? <==> Configured(env) && reply.Returned? && !Truthy(reply.value.error) && Present(reply.value.data)
    ensures r.Ok? ==> r.value == reply.value.data.value && r.value != ""
    ensures Configured(env) && reply.Threw? ==> r == Err(ThrownMessage(reply.exception, GetStatusFailed))
    ensures Configured(env) && reply.Returned? && reply.value.error.None? && !Present(reply.value.data) ==>
      r == Err(EnvelopeNotFound)
    ensures Configured(env) && reply.Returned? && (Truthy(reply.value.error) || !Present(reply.value.data)) ==>
      r == Err(ErrorMessage(reply.value.error, EnvelopeNotFound, GetEnvelopeFailed))
  {
    match GetClientAndWorkspace(env)
    case Err(e) => Err(e)
    case Ok(_) =>
      match reply
      case Threw(ex) => Err(ThrownMessage(ex, GetStatusFailed))
      case Returned(Response(status, error)) =>
        if Truthy(error) || !Present(status) then Err(ErrorMessage(error, EnvelopeNotFound, GetEnvelopeFailed))
        else Ok(status.value)
  }

  /** Without configuration the reply is irrelevant: no lookup happens. */
  lemma StatusIgnoresCallWithoutConfig(env: Env, envelopeUuid: string, r1: Call<Response<string>>, r2: Call<Response<string>>)
    requires !Configured(env)
    ensures GetEnvelopeStatus(env, envelopeUuid, r1) == GetEnvelopeStatus(env, envelopeUuid, r2)
  {
  }

  /** The status is cast, not checked: any non-empty reported status comes back as it
      is, whether or not it is one of the documented ones. */
  lemma StatusIsCastNotChecked(env: Env, envelopeUuid: string, status: string)
    requires Configured(env) && status != ""
    ensures GetEnvelopeStatus(env, envelopeUuid, Returned(Response(Some(status), None))) == Ok(status)
    ensures status !in KnownStatuses ==>
      GetEnvelopeStatus(env, envelopeUuid, Returned(Response(Some(status), None))).Ok?
  {
  }

  /** An undocumented status such as "archived" is reported like any other. */
  lemma UndocumentedStatusReported(env: Env, envelopeUuid: string)
    requires Configured(env)
    ensures "archived" !in KnownStatuses
    ensures GetEnvelopeStatus(env, envelopeUuid, Returned(Response(Some("archived"), None))) == Ok("archived")
  {
    StatusIsCastNotChecked(env, envelopeUuid, "archived");
  }
}

=== FILE: format_error.dfy ===
/** Turning a thrown value into the message shown to the user. */
module FormatError {
  import opened Values
  import opened Vendor

  const HandshakePrefix: string := "Subnoto API handshake failed: "
  const HttpsHint: string := " Use HTTPS: set SUBNOTO_BASE_URL=https://enclave.subnoto.com in .env"
  const UnreachablePrefix: string := "Cannot reach Subnoto API at "
  const UnreachableSuffix: string :=
    ". Check that the API or tunnel is running (e.g. start the api-proxy or use the cloud URL such as https://enclave.subnoto.com)."
  const UnknownError: string := "Unknown error creating envelope"

  /** The remediation hint appended to a handshake failure. */
  function HandshakeHint(apiBaseUrl: string): (hint: string)
    ensures hint != "" <==> StartsWith(apiBaseUrl, "http://") && Contains(apiBaseUrl, "enclave.subnoto.com")
  {
    if StartsWith(apiBaseUrl, "http://") && Contains(apiBaseUrl, "enclave.subnoto.com") then HttpsHint else ""
  }

  /** A handshake failure: the vendor error's message says "no session id", in any letter case. */
  predicate IsHandshakeFailure(message: string)
  {
    ContainsIgnoringCase(message, "no session id")
  }

  /** A connectivity failure: the message says "fetch failed" or the cause's code is ECONNREFUSED. */
  predicate IsConnectivityFailure(message: string, causeCode: Option<string>)
  {
    Contains(message, "fetch failed") || causeCode == Some("ECONNREFUSED")
  }

  /** The vendor-error test comes first, so a vendor error is never reported as
      unreachable, whatever its message says; any other error never gets the
      handshake text. */
  function FormatEnvelopeError(err: Exception, apiBaseUrl: string): (msg: string)
    ensures err.VendorError? && IsHandshakeFailure(err.message) ==>
      msg == HandshakePrefix + err.message + "." + HandshakeHint(apiBaseUrl)
    ensures err.VendorError? && !IsHandshakeFailure(err.message) ==> msg == err.message
    ensures err.PlainError? && IsConnectivityFailure(err.message, err.causeCode) ==>
      msg == UnreachablePrefix + apiBaseUrl + UnreachableSuffix
    ensures err.PlainError? && !IsConnectivityFailure(err.message, err.causeCode) ==> msg == err.message
    ensures err.NonError? ==> msg == UnknownError
  {
    match err
    case VendorError(message) =>
      if IsHandshakeFailure(message) then HandshakePrefix + message + "." + HandshakeHint(apiBaseUrl)
      else message
    case PlainError(message, causeCode) =>
      if IsConnectivityFailure(message, causeCode) then UnreachablePrefix + apiBaseUrl + UnreachableSuffix
      else message
    case NonError => UnknownError
  }

  lemma LowerAsciiConcat(a: string, b: string)
    ensures LowerAscii(a + b) == LowerAscii(a) + LowerAscii(b)
  {
  }

  lemma {:induction false} ContainsInMiddle(a: string, s: string, b: string, sub: string)
    requires Contains(s, sub)
    ensures Contains(a + s + b, sub)
  {
    ContainsIff(s, sub);
    var i :| OccursAt(s, sub, i);
    assert (a + s + b)[|a| + i..|a| + i + |sub|] == s[i..i + |sub|];
    assert OccursAt(a + s + b, sub, |a| + i);
    ContainsIff(a + s + b, sub);
  }

  /** A rewritten handshake failure still carries the vendor's own message, so it
      still reads as a handshake failure. */
  lemma {:induction false} HandshakeMessageKeepsCause(message: string, apiBaseUrl: string)
    requires IsHandshakeFailure(message)
    ensures var msg := FormatEnvelopeError(VendorError(message), apiBaseUrl);
      StartsWith(msg, HandshakePrefix) && IsHandshakeFailure(msg)
  {
    var tail := "." + HandshakeHint(apiBaseUrl);
    LowerAsciiConcat(HandshakePrefix + message, tail);
    LowerAsciiConcat(HandshakePrefix, message);
    ContainsInMiddle(LowerAscii(HandshakePrefix), LowerAscii(message), LowerAscii(tail), "no session id");
    assert HandshakePrefix + message + tail == HandshakePrefix + message + "." + HandshakeHint(apiBaseUrl);
  }

  /** The unreachable-API message names the base URL it tried. */
  lemma {:induction false} UnreachableMessageNamesBaseUrl(message: string, causeCode: Option<string>, apiBaseUrl: string)
    requires IsConnectivityFailure(message, causeCode)
    ensures Contains(FormatEnvelopeError(PlainError(message, causeCode), apiBaseUrl), apiBaseUrl)
  {
    ContainsIff(apiBaseUrl, apiBaseUrl);
    assert OccursAt(apiBaseUrl, apiBaseUrl, 0);
    ContainsInMiddle(UnreachablePrefix, apiBaseUrl, UnreachableSuffix, apiBaseUrl);
  }
}

=== FILE: iframe_token.dfy ===
/** Re-opening a signing session: a fresh iframe token for an envelope and signer,
    turned into the embeddable URL. */
module IframeToken {
  import opened Values
  import opened Vendor
  import opened SubnotoClient
  import opened EmbedUrl
  import opened Whoami

  const TokenFailed: string := "Failed to create iframe token"
  const SigningLinkFailed: string := "Failed to get signing link"

  /** The token call produced a usable token: no truthy error and a non-empty `iframeToken`
      (the call's `data`). */
  predicate TokenIssued(c: Call<Response<string>>)
  {
    c.Returned? && !Truthy(c.value.error) && Present(c.value.data)
  }

  /** `getIframeUrlForEnvelope(envelopeUuid, signerEmail?)`: a missing or empty signer
      e-mail is replaced by the account owner's before the token request. */
  method GetIframeUrlForEnvelope(env: Env, envelopeUuid: string, signerEmail: Option<string>,
                                 owner: Call<Response<WhoamiData>>, token: Call<Response<string>>)
    returns (result: Result<string>, calls: seq<Request>)
    ensures !Configured(env) ==> result == Err(MissingEnvMessage) && calls == []
    ensures Configured(env) && !Present(signerEmail) && GetOwnerEmail(env, owner).Err? ==>
      result == Err(GetOwnerEmail(env, owner).error) && calls == [Whoami]
    ensures Configured(env) && (Present(signerEmail) || GetOwnerEmail(env, owner).Ok?) ==>
      var lookup := !Present(signerEmail);
      var email := if lookup then GetOwnerEmail(env, owner).value else signerEmail.value;
      && calls == (if lookup then [Whoami] else []) + [CreateIframeToken(env[WorkspaceUuid], envelopeUuid, email)]
      && (token.Threw? ==> result == Err(ThrownMessage(token.exception, SigningLinkFailed)))
      && (token.Returned? && !TokenIssued(token) ==> result == Err(ErrorMessage(token.value.error, TokenFailed, TokenFailed)))
      && (TokenIssued(token) ==> result == Ok(BuildEmbedSignUrl(env, token.value.data.value)))
  {
    calls := [];
    var ctx := GetClientAndWorkspace(env);
    if ctx.Err? {
      result := Err(ctx.error);
      return;
    }
    var email := signerEmail;
    if !Present(email) {
      var ownerResult := GetOwnerEmail(env, owner);
      calls := calls + [Whoami];
      if ownerResult.Err? {
        result := Err(ownerResult.error);
        return;
      }
      email := Some(ownerResult.value);
    }
    calls := calls + [CreateIframeToken(ctx.value.workspaceUuid, envelopeUuid, email.value)];
    match token
    case Threw(ex) =>
      result := Err(ThrownMessage(ex, SigningLinkFailed));
    case Returned(response) =>
      if Truthy(response.error) || !Present(response.data) {
        result := Err(ErrorMessage(response.error, TokenFailed, TokenFailed));
      } else {
        result := Ok(BuildEmbedSignUrl(env, response.data.value));
      }
  }
}

=== FILE: mass_upload.dfy ===
/** The batch upload: one envelope per iteration from the sample PDF, each with a random
    professional-looking title; a failing item is recorded and the batch goes on. */
module MassUpload {
  import opened Values
  import opened Vendor
  import opened SubnotoClient
  import opened Whoami
  import opened CreateOneEnvelope

  const TitleParts: seq<seq<string>> := [
    ["Q4 2024", "Q1 2025", "FY2024", "H2 2024", "January 2025", "Board"],
    ["Financial Report", "Audit Summary", "Compliance Review", "Due Diligence", "Risk Assessment", "Budget Overview"],
    ["Contract Amendment", "NDA", "Vendor Agreement", "SOW", "MSA", "Addendum"],
    ["\U{2014} Acme Corp", "\U{2014} Confidential", "\U{2014} Final", "\U{2014} Signed", "\U{2014} Draft", "\U{2014} Rev. 2"]
  ]

  /** Four `Math.random()` draws, each in [0, 1). */
  predicate TitleDraws(draws: seq<real>)
  {
    |draws| == |TitleParts| && forall k | 0 <= k < |draws| :: 0.0 <= draws[k] < 1.0
  }

  /** `arr[Math.floor(Math.random() * arr.length)]`. */
  function PickIndex(r: real, length: nat): (i: nat)
    requires 0.0 <= r < 1.0 && length > 0
    ensures i < length
  {
    var i := (r * length as real).Floor;
    assert 0.0 <= r * length as real < length as real;
    i
  }

  /** The chosen index is a valid position. */
  lemma PickIndexInRange(r: real, length: nat)
    requires 0.0 <= r < 1.0 && length > 0
    ensures PickIndex(r, length) < length
  {
    assert r * length as real < length as real;
  }

  /** `parts.join(" ")`. */
  function Join(parts: seq<string>, separator: string): string
  {
    if parts == [] then ""
    else if |parts| == 1 then parts[0]
    else parts[0] + separator + Join(parts[1..], separator)
  }

  /** `TITLE_PARTS.map((arr) => arr[...])`: one part chosen from each list. */
  function ChosenParts(draws: seq<real>): (parts: seq<string>)
    requires TitleDraws(draws)
    ensures |parts| == |TitleParts|
    ensures forall k | 0 <= k < |TitleParts| :: parts[k] in TitleParts[k]
  {
    seq(|TitleParts|, k requires 0 <= k < |TitleParts| =>
      PickIndexInRange(draws[k], |TitleParts[k]|);
      TitleParts[k][PickIndex(draws[k], |TitleParts[k]|)])
  }

  /** `randomProTitle()`: the chosen parts, in list order, with one space between
      neighbours. */
  function RandomProTitle(draws: seq<real>): (title: string)
    requires TitleDraws(draws)
    ensures var parts := ChosenParts(draws);
      title == parts[0] + " " + parts[1] + " " + parts[2] + " " + parts[3]
  {
    JoinFour(ChosenParts(draws), " ");
    Join(ChosenParts(draws), " ")
  }

  /** Four parts joined: the parts with one separator between neighbours. */
  lemma JoinFour(parts: seq<string>, separator: string)
    requires |parts| == 4
    ensures Join(parts, separator) == parts[0] + separator + parts[1] + separator + parts[2] + separator + parts[3]
  {
    var rest1 := parts[1..];
    var rest2 := rest1[1..];
    assert rest2[1..] == [parts[3]];
    assert Join(rest2, separator) == parts[2] + separator + parts[3];
    assert Join(rest1, separator) == parts[1] + separator + parts[2] + separator + parts[3];
  }

  /** A title is one entry from each list, in list order, separated by single spaces. */
  lemma TitleShape(draws: seq<real>)
    requires TitleDraws(draws)
    ensures exists p0, p1, p2, p3 ::
      && p0 in TitleParts[0] && p1 in TitleParts[1] && p2 in TitleParts[2] && p3 in TitleParts[3]
      && RandomProTitle(draws) == p0 + " " + p1 + " " + p2 + " " + p3
  {
    var parts := ChosenParts(draws);
    assert parts[0] in TitleParts[0] && parts[1] in TitleParts[1];
    assert parts[2] in TitleParts[2] && parts[3] in TitleParts[3];
  }

  datatype MassUploadItem = Uploaded(envelopeUuid: string, documentUuid: string, title: string) | Failed(error: string)

  /** What iteration `i` records, given the outcome of its four-step run. */
  function ItemOf(run: Run<Created>, title: string): (item: MassUploadItem)
    ensures item.Failed? <==> run.result.Err?
    ensures item.Failed? ==> item.error == run.result.error
    ensures item.Uploaded? ==>
      item == Uploaded(run.result.value.envelopeUuid, run.result.value.documentUuid, title)
  {
    match run.result
    case Err(e) => Failed(e)
    case Ok(ids) => Uploaded(ids.envelopeUuid, ids.documentUuid, title)
  }

  /** How many times `for (let i = 0; i < count; i++)` runs for a (finite) `count`: the
      least natural not below `count`, i.e. the ceiling of a positive count and 0 otherwise. */
  function Iterations(count: real): (n: nat)
    ensures count <= n as real
    ensures n > 0 ==> ((n - 1) as real) < count
  {
    if count <= 0.0 then 0
    else if count.Floor as real == count then count.Floor
    else count.Floor + 1
  }

  /** The loop runs iteration `i` exactly when `i < count`. */
  lemma IterationsIff(count: real, i: nat)
    ensures i < Iterations(count) <==> (i as real) < count
  {
    var n := Iterations(count);
    if i < n {
      assert (i as real) <= ((n - 1) as real);
    }
  }

  /** A whole count runs that many iterations; 2.5 runs three. */
  lemma IterationsExamples()
    ensures Iterations(3.0) == 3 && Iterations(2.5) == 3 && Iterations(0.0) == 0 && Iterations(-1.5) == 0
  {
  }

  /** The two bounds pin the iteration count down: it is the least natural not below `count`. */
  lemma IterationsLeast(count: real, n: nat)
    requires count <= n as real && (n == 0 || ((n - 1) as real) < count)
    ensures Iterations(count) == n
  {
  }

  /** The batch's draws and vendor behaviour cover every iteration. */
  predicate Scripted(count: real, titleDraws: seq<seq<real>>, scripts: seq<BufferScript>)
  {
    && Iterations(count) <= |titleDraws| && Iterations(count) <= |scripts|
    && forall i | 0 <= i < |titleDraws| :: TitleDraws(titleDraws[i])
  }

  /** The run of iteration `i`. */
  function IterationRun(env: Env, signerEmail: string, titleDraws: seq<seq<real>>, scripts: seq<BufferScript>, i: nat): Run<Created>
    requires Configured(env) && i < |titleDraws| && i < |scripts| && TitleDraws(titleDraws[i])
  {
    BufferRun(env[SubnotoBaseUrl], env[WorkspaceUuid], RandomProTitle(titleDraws[i]),
              signerEmail, DemoSigner, scripts[i])
  }

  /** The runs of iterations `0 .. n-1`, in order. */
  function IterationRuns(env: Env, signerEmail: string, titleDraws: seq<seq<real>>, scripts: seq<BufferScript>, n: nat): (runs: seq<Run<Created>>)
    requires Configured(env) && n <= |titleDraws| && n <= |scripts|
    requires forall i | 0 <= i < |titleDraws| :: TitleDraws(titleDraws[i])
    ensures |runs| == n
  {
    seq(n, i requires 0 <= i < n => IterationRun(env, signerEmail, titleDraws, scripts, i))
  }

  /** The requests of a sequence of runs, run after run. */
  function Flatten(runs: seq<Run<Created>>): seq<Request>
  {
    if runs == [] then [] else Flatten(runs[..|runs| - 1]) + runs[|runs| - 1].calls
  }

  /** The requests of iterations `0 .. n-1`, in order. */
  function BatchCalls(env: Env, signerEmail: string, titleDraws: seq<seq<real>>, scripts: seq<BufferScript>, n: nat): seq<Request>
    requires Configured(env) && n <= |titleDraws| && n <= |scripts|
    requires forall i | 0 <= i < |titleDraws| :: TitleDraws(titleDraws[i])
  {
    Flatten(IterationRuns(env, signerEmail, titleDraws, scripts, n))
  }

  lemma IterationCallsBounded(env: Env, signerEmail: string, titleDraws: seq<seq<real>>, scripts: seq<BufferScript>, i: nat)
    requires Configured(env) && i < |titleDraws| && i < |scripts| && TitleDraws(titleDraws[i])
    ensures 1 <= |IterationRun(env, signerEmail, titleDraws, scripts, i).calls| <= 4
  {
  }

  /** Runs of one to four requests each make between one and four requests per run. */
  lemma {:induction false} FlattenBounds(runs: seq<Run<Created>>)
    requires forall k | 0 <= k < |runs| :: 1 <= |runs[k].calls| <= 4
    ensures |runs| <= |Flatten(runs)| <= 4 * |runs|
  {
    if runs != [] {
      var n := |runs| - 1;
      assert forall k | 0 <= k < n :: runs[..n][k] == runs[k];
      FlattenBounds(runs[..n]);
    }
  }

  /** Every iteration issues its own upload: the batch makes at least one request per
      item, so no item is skipped. */
  lemma BatchCallsCoverEveryItem(env: Env, signerEmail: string, titleDraws: seq<seq<real>>,
                                 scripts: seq<BufferScript>, n: nat)
    requires Configured(env) && n <= |titleDraws| && n <= |scripts|
    requires forall i | 0 <= i < |titleDraws| :: TitleDraws(titleDraws[i])
    ensures n <= |BatchCalls(env, signerEmail, titleDraws, scripts, n)| <= 4 * n
  {
    var runs := IterationRuns(env, signerEmail, titleDraws, scripts, n);
    forall k | 0 <= k < n ensures 1 <= |runs[k].calls| <= 4 {
      IterationCallsBounded(env, signerEmail, titleDraws, scripts, k);
    }
    FlattenBounds(runs);
  }

  /** One more run adds its own requests at the end. */
  lemma FlattenStep(runs: seq<Run<Created>>, i: nat)
    requires i < |runs|
    ensures Flatten(runs[..i + 1]) == Flatten(runs[..i]) + runs[i].calls
  {
    assert runs[..i + 1][..i] == runs[..i];
  }

  /** One iteration of `runMassUpload`: a fresh title, one envelope, one recorded item. */
  method UploadOne(env: Env, signerEmail: string, titleDraws: seq<seq<real>>, scripts: seq<BufferScript>, i: nat)
    returns (item: MassUploadItem, calls: seq<Request>)
    requires Configured(env) && i < |titleDraws| && i < |scripts| && TitleDraws(titleDraws[i])
    ensures item == ItemOf(IterationRun(env, signerEmail, titleDraws, scripts, i), RandomProTitle(titleDraws[i]))
    ensures calls == IterationRun(env, signerEmail, titleDraws, scripts, i).calls
  {
    var title := RandomProTitle(titleDraws[i]);
    var created;
    created, calls := CreateEnvelopeFromBuffer(env, env[WorkspaceUuid], title, signerEmail, scripts[i]);
    if created.Err? {
      item := Failed(created.error);
    } else {
      item := Uploaded(created.value.envelopeUuid, created.value.documentUuid, title);
    }
  }

  /** The items iterations `0 .. n-1` record, in order. */
  function BatchItems(env: Env, signerEmail: string, titleDraws: seq<seq<real>>, scripts: seq<BufferScript>, n: nat): (items: seq<MassUploadItem>)
    requires Configured(env) && n <= |titleDraws| && n <= |scripts|
    requires forall i | 0 <= i < |titleDraws| :: TitleDraws(titleDraws[i])
    ensures |items| == n
  {
    if n == 0 then []
    else BatchItems(env, signerEmail, titleDraws, scripts, n - 1)
           + [ItemOf(IterationRun(env, signerEmail, titleDraws, scripts, n - 1), RandomProTitle(titleDraws[n - 1]))]
  }

  /** One item per iteration: item `i` is the outcome of iteration `i`, whatever the
      other iterations did. */
  lemma {:induction false} BatchItemsAt(env: Env, signerEmail: string, titleDraws: seq<seq<real>>, scripts: seq<BufferScript>,
                                        n: nat, i: nat)
    requires Configured(env) && n <= |titleDraws| && n <= |scripts|
    requires forall k | 0 <= k < |titleDraws| :: TitleDraws(titleDraws[k])
    requires i < n
    ensures BatchItems(env, signerEmail, titleDraws, scripts, n)[i]
      == ItemOf(IterationRun(env, signerEmail, titleDraws, scripts, i), RandomProTitle(titleDraws[i]))
  {
    if i < n - 1 {
      BatchItemsAt(env, signerEmail, titleDraws, scripts, n - 1, i);
    }
  }

  lemma BatchItemsStep(env: Env, signerEmail: string, titleDraws: seq<seq<real>>, scripts: seq<BufferScript>, i: nat,
                       before: seq<MassUploadItem>, item: MassUploadItem)
    requires Configured(env) && i < |titleDraws| && i < |scripts|
    requires forall k | 0 <= k < |titleDraws| :: TitleDraws(titleDraws[k])
    requires before == BatchItems(env, signerEmail, titleDraws, scripts, i)
    requires item == ItemOf(IterationRun(env, signerEmail, titleDraws, scripts, i), RandomProTitle(titleDraws[i]))
    ensures before + [item] == BatchItems(env, signerEmail, titleDraws, scripts, i + 1)
  {
  }

  /** The loop of `runMassUpload`: one iteration per natural below `count`, each creating
      one envelope with a fresh title and recording its outcome, with a pause after every
      iteration `i` with `i < count - 1`. */
  method UploadEach(env: Env, signerEmail: string, count: real, titleDraws: seq<seq<real>>, scripts: seq<BufferScript>)
    returns (results: seq<MassUploadItem>, delays: nat, calls: seq<Request>)
    requires Configured(env) && Scripted(count, titleDraws, scripts)
    ensures var n := Iterations(count);
      && results == BatchItems(env, signerEmail, titleDraws, scripts, n)
      && delays == (if n > 0 then n - 1 else 0)
      && calls == BatchCalls(env, signerEmail, titleDraws, scripts, n)
  {
    ghost var n := Iterations(count);
    ghost var runs := IterationRuns(env, signerEmail, titleDraws, scripts, n);
    results, delays, calls := [], 0, [];
    var i: nat := 0;
    while (i as real) < count
      invariant i <= n
      invariant results == BatchItems(env, signerEmail, titleDraws, scripts, i)
      invariant delays == (if i < n then i else if n > 0 then n - 1 else 0)
      invariant calls == Flatten(runs[..i])
      decreases n - i
    {
      IterationsIff(count, i);
      IterationsIff(count, i + 1);
      var item, stepCalls := UploadOne(env, signerEmail, titleDraws, scripts, i);
      BatchItemsStep(env, signerEmail, titleDraws, scripts, i, results, item);
      FlattenStep(runs, i);
      calls := calls + stepCalls;
      results := results + [item];
      if (i as real) < count - 1.0 {
        delays := delays + 1;
      }
      i := i + 1;
    }
    IterationsIff(count, i);
    assert runs[..n] == runs;
  }

  /** `runMassUpload({ count, delayMs })`. The checks run in the order configuration,
      sample PDF, owner e-mail; then every iteration runs whatever the earlier ones did.
      `delays` counts the pauses, and `calls` is the trace of vendor requests. */
  method RunMassUpload(env: Env, count: real, pdfExists: bool, owner: Call<Response<WhoamiData>>,
                       titleDraws: seq<seq<real>>, scripts: seq<BufferScript>)
    returns (result: Result<seq<MassUploadItem>>, delays: nat, calls: seq<Request>)
    requires Scripted(count, titleDraws, scripts)
    ensures !Configured(env) ==> result == Err(MissingEnvMessage) && calls == [] && delays == 0
    ensures Configured(env) && !pdfExists ==> result == Err(MissingPdf) && calls == [] && delays == 0
    ensures Configured(env) && pdfExists && GetOwnerEmail(env, owner).Err? ==>
      result == Err(GetOwnerEmail(env, owner).error) && calls == [Whoami] && delays == 0
    ensures Configured(env) && pdfExists && GetOwnerEmail(env, owner).Ok? ==>
      var signer := GetOwnerEmail(env, owner).value;
      var n := Iterations(count);
      && result == Ok(BatchItems(env, signer, titleDraws, scripts, n))
      && delays == (if n > 0 then n - 1 else 0)
      && calls == [Whoami] + BatchCalls(env, signer, titleDraws, scripts, n)
  {
    calls, delays := [], 0;
    var ctx := GetClientAndWorkspace(env);
    if ctx.Err? {
      return Err(ctx.error), delays, calls;
    }
    var workspaceUuid := ctx.value.workspaceUuid;

    if !pdfExists {
      return Err(MissingPdf), delays, calls;
    }

    var ownerEmail := GetOwnerEmail(env, owner);
    calls := calls + [Whoami];
    if ownerEmail.Err? {
      return Err(ownerEmail.error), delays, calls;
    }
    var signerEmail := ownerEmail.value;

    var results, pauses, batchCalls := UploadEach(env, signerEmail, count, titleDraws, scripts);
    assert signerEmail == GetOwnerEmail(env, owner).value;
    return Ok(results), pauses, [Whoami] + batchCalls;
  }
}

=== FILE: storage_envelopes.dfy ===
/** The saved-envelope ledger kept in the browser's local storage: a JSON array of
    `{envelopeUuid, createdAt, signerEmail?}` records under one storage key. */
module StorageEnvelopes {
  import opened Values

  /** A parsed JSON value. Objects are maps, so fields a record carries besides the
      three the ledger knows survive a load and a save unchanged. */
  datatype JsonValue =
    | JNull
    | JBool(b: bool)
    | JNumber(n: real)
    | JString(s: string)
    | JArray(elements: seq<JsonValue>)
    | JObject(fields: map<string, JsonValue>)

  /** What `localStorage.getItem` yields for the ledger's key, as seen by `JSON.parse`:
      no entry, the empty text, text that does not parse, or text that parses to a value. */
  datatype Stored = Absent | EmptyText | Unparseable | Json(value: JsonValue)

  const StorageKey: string := "subnoto_embedded_demo_envelopes"
  const UuidKey: string := "envelopeUuid"
  const CreatedAtKey: string := "createdAt"
  const SignerEmailKey: string := "signerEmail"

  /** The load filter: a non-null object whose `envelopeUuid` is a string and whose
      `createdAt` is a number. `signerEmail` is not checked. */
  predicate IsSavedEnvelope(v: JsonValue)
  {
    && v.JObject?
    && UuidKey in v.fields && v.fields[UuidKey].JString?
    && CreatedAtKey in v.fields && v.fields[CreatedAtKey].JNumber?
  }

  /** The filter never looks at `signerEmail`: setting it to any value, or adding it,
      leaves a record's verdict as it was. */
  lemma SignerEmailNotChecked(v: JsonValue, email: JsonValue)
    requires v.JObject?
    ensures IsSavedEnvelope(JObject(v.fields[SignerEmailKey := email])) == IsSavedEnvelope(v)
  {
    var w := JObject(v.fields[SignerEmailKey := email]);
    assert UuidKey in w.fields <==> UuidKey in v.fields;
    assert CreatedAtKey in w.fields <==> CreatedAtKey in v.fields;
  }

  predicate AllSaved(list: seq<JsonValue>)
  {
    forall i | 0 <= i < |list| :: IsSavedEnvelope(list[i])
  }

  function Uuid(v: JsonValue): string
    requires IsSavedEnvelope(v)
  {
    v.fields[UuidKey].s
  }

  /** `e.envelopeUuid === envelopeUuid`, for any element. */
  predicate HasUuid(v: JsonValue, envelopeUuid: string)
  {
    v.JObject? && UuidKey in v.fields && v.fields[UuidKey] == JString(envelopeUuid)
  }

  /** No two records of the list carry the same uuid. */
  predicate DistinctUuids(list: seq<JsonValue>)
    requires AllSaved(list)
  {
    forall i, j | 0 <= i < j < |list| :: Uuid(list[i]) != Uuid(list[j])
  }

  /** `parsed.filter(isSavedEnvelope)`. */
  function KeepSaved(elems: seq<JsonValue>): (kept: seq<JsonValue>)
    ensures AllSaved(kept)
    ensures |kept| <= |elems|
  {
    if elems == [] then []
    else (if IsSavedEnvelope(elems[0]) then [elems[0]] else []) + KeepSaved(elems[1..])
  }

  /** `loadSavedEnvelopes()`; `inBrowser` is `typeof window !== "undefined"`. */
  function LoadSavedEnvelopes(inBrowser: bool, stored: Stored): (list: seq<JsonValue>)
    ensures AllSaved(list)
    ensures !inBrowser || stored.Absent? || stored.EmptyText? || stored.Unparseable? ==> list == []
    ensures stored.Json? && !stored.value.JArray? ==> list == []
    ensures inBrowser && stored.Json? && stored.value.JArray? ==>
      forall v :: v in list <==> v in stored.value.elements && IsSavedEnvelope(v)
  {
    if !inBrowser then []
    else match stored
      case Json(JArray(elements)) =>
        KeepSavedMembers(elements);
        KeepSaved(elements)
      case _ => []
  }

  /** The filter keeps a value exactly when it is in the input and passes the check. */
  lemma {:induction false} KeepSavedMembers(elems: seq<JsonValue>)
    ensures forall v :: v in KeepSaved(elems) <==> v in elems && IsSavedEnvelope(v)
  {
    if elems != [] {
      KeepSavedMembers(elems[1..]);
      assert elems == [elems[0]] + elems[1..];
    }
  }

  /** The filter works piecewise, so it keeps the order of what it keeps. */
  lemma {:induction false} KeepSavedAppend(a: seq<JsonValue>, b: seq<JsonValue>)
    ensures KeepSaved(a + b) == KeepSaved(a) + KeepSaved(b)
  {
    if a == [] {
      assert a + b == b;
    } else {
      var head := if IsSavedEnvelope(a[0]) then [a[0]] else [];
      assert (a + b)[0] == a[0];
      assert (a + b)[1..] == a[1..] + b;
      KeepSavedAppend(a[1..], b);
      assert KeepSaved(a + b) == head + KeepSaved(a[1..] + b);
      assert KeepSaved(a) == head + KeepSaved(a[1..]);
    }
  }

  /** A malformed element is dropped on its own; its neighbours stay. */
  lemma DropsMalformedAlone(before: seq<JsonValue>, bad: JsonValue, after: seq<JsonValue>)
    requires !IsSavedEnvelope(bad)
    ensures KeepSaved(before + [bad] + after) == KeepSaved(before) + KeepSaved(after)
  {
    KeepSavedAppend(before + [bad], after);
    KeepSavedAppend(before, [bad]);
    assert [bad][1..] == [];
    assert KeepSaved([bad]) == [];
    assert KeepSaved(before + [bad]) == KeepSaved(before);
  }

  /** A list of well-formed records passes the filter unchanged. */
  lemma {:induction false} KeepSavedValid(list: seq<JsonValue>)
    requires AllSaved(list)
    ensures KeepSaved(list) == list
  {
    if list != [] {
      KeepSavedValid(list[1..]);
    }
  }

  /** What a write stores is what the next load returns. */
  lemma LoadAfterWrite(list: seq<JsonValue>)
    requires AllSaved(list)
    ensures LoadSavedEnvelopes(true, Json(JArray(list))) == list
  {
    KeepSavedValid(list);
  }

  /** `list.find((e) => e.envelopeUuid === envelopeUuid)`, as the index it finds. */
  function FindFirst(list: seq<JsonValue>, envelopeUuid: string): (k: Option<nat>)
    ensures k.Some? ==> k.value < |list| && HasUuid(list[k.value], envelopeUuid)
    ensures k.Some? ==> forall j | 0 <= j < k.value :: !HasUuid(list[j], envelopeUuid)
    ensures k.None? ==> forall j | 0 <= j < |list| :: !HasUuid(list[j], envelopeUuid)
  {
    if list == [] then None
    else if HasUuid(list[0], envelopeUuid) then Some(0)
    else match FindFirst(list[1..], envelopeUuid)
      case None => None
      case Some(k) => Some(k + 1)
  }

  /** The record pushed for a new uuid. `JSON.stringify` drops an undefined
      `signerEmail`, so the stored object has no such field. */
  function NewRecord(envelopeUuid: string, signerEmail: Option<string>, now: int): (v: JsonValue)
    ensures IsSavedEnvelope(v) && Uuid(v) == envelopeUuid && v.fields[CreatedAtKey] == JNumber(now as real)
    ensures SignerEmailKey in v.fields <==> signerEmail.Some?
    ensures signerEmail.Some? ==> v.fields[SignerEmailKey] == JString(signerEmail.value)
    ensures |v.fields.Keys| == if signerEmail.Some? then 3 else 2
  {
    var base := map[UuidKey := JString(envelopeUuid), CreatedAtKey := JNumber(now as real)];
    if signerEmail.Some? then JObject(base[SignerEmailKey := JString(signerEmail.value)]) else JObject(base)
  }

  /** `existing.signerEmail = signerEmail` on a found record. */
  function WithSignerEmail(v: JsonValue, email: string): (w: JsonValue)
    requires v.JObject?
    ensures w.JObject? && w.fields.Keys == v.fields.Keys + {SignerEmailKey}
    ensures w.fields[SignerEmailKey] == JString(email)
    ensures forall key | key in v.fields && key != SignerEmailKey :: w.fields[key] == v.fields[key]
  {
    JObject(v.fields[SignerEmailKey := JString(email)])
  }

  /** The list `saveEnvelope` writes back, or `None` when it writes nothing. */
  function Upsert(list: seq<JsonValue>, envelopeUuid: string, signerEmail: Option<string>, now: int): (written: Option<seq<JsonValue>>)
    ensures written.None? <==> FindFirst(list, envelopeUuid).Some? && signerEmail.None?
  {
    match FindFirst(list, envelopeUuid)
    case Some(k) =>
      if signerEmail.Some? then Some(list[k := WithSignerEmail(list[k], signerEmail.value)]) else None
    case None => Some(list + [NewRecord(envelopeUuid, signerEmail, now)])
  }

  /** An unknown uuid is appended as one record carrying that uuid, the given e-mail
      and the supplied time; the earlier records are untouched. */
  lemma SaveUnknownAppends(list: seq<JsonValue>, envelopeUuid: string, signerEmail: Option<string>, now: int)
    requires forall j | 0 <= j < |list| :: !HasUuid(list[j], envelopeUuid)
    ensures var written := Upsert(list, envelopeUuid, signerEmail, now);
      && written.Some? && |written.value| == |list| + 1
      && written.value[..|list|] == list
      && var added := written.value[|list|];
         IsSavedEnvelope(added) && Uuid(added) == envelopeUuid
         && added.fields[CreatedAtKey] == JNumber(now as real)
         && (SignerEmailKey in added.fields <==> signerEmail.Some?)
         && (signerEmail.Some? ==> added.fields[SignerEmailKey] == JString(signerEmail.value))
  {
    var written := Upsert(list, envelopeUuid, signerEmail, now);
    assert written.value == list + [NewRecord(envelopeUuid, signerEmail, now)];
    assert written.value[..|list|] == list;
  }

  /** A known uuid with an e-mail changes only that record's `signerEmail`: length,
      order, the other records and the record's other fields stay as they were. */
  lemma SaveKnownUpdatesEmail(list: seq<JsonValue>, k: nat, envelopeUuid: string, email: string, now: int)
    requires k < |list| && HasUuid(list[k], envelopeUuid)
    requires forall j | 0 <= j < k :: !HasUuid(list[j], envelopeUuid)
    ensures var written := Upsert(list, envelopeUuid, Some(email), now);
      && written.Some? && |written.value| == |list|
      && (forall j | 0 <= j < |list| && j != k :: written.value[j] == list[j])
      && written.value[k].JObject?
      && written.value[k].fields[SignerEmailKey] == JString(email)
      && (forall key | key != SignerEmailKey ::
            (key in written.value[k].fields <==> key in list[k].fields)
            && (key in list[k].fields ==> written.value[k].fields[key] == list[k].fields[key]))
  {
    assert FindFirst(list, envelopeUuid) == Some(k);
  }

  /** A known uuid without an e-mail leaves storage alone. */
  lemma SaveKnownWithoutEmailSkipsWrite(list: seq<JsonValue>, k: nat, envelopeUuid: string, now: int)
    requires k < |list| && HasUuid(list[k], envelopeUuid)
    ensures Upsert(list, envelopeUuid, None, now).None?
  {
    assert HasUuid(list[k], envelopeUuid);
  }

  /** Whatever is written consists of well-formed records only, and the saved uuid is
      then on the list. */
  lemma UpsertWritesValid(list: seq<JsonValue>, envelopeUuid: string, signerEmail: Option<string>, now: int)
    requires AllSaved(list)
    ensures var written := Upsert(list, envelopeUuid, signerEmail, now);
      written.Some? ==> AllSaved(written.value) && FindFirst(written.value, envelopeUuid).Some?
  {
    var written := Upsert(list, envelopeUuid, signerEmail, now);
    if written.Some? {
      match FindFirst(list, envelopeUuid)
      case Some(k) =>
        assert HasUuid(written.value[k], envelopeUuid);
      case None =>
        assert HasUuid(written.value[|list|], envelopeUuid);
    }
  }

  /** Saving keeps uuids unique: a list without duplicates has none after the write. */
  lemma UpsertKeepsDistinct(list: seq<JsonValue>, envelopeUuid: string, signerEmail: Option<string>, now: int)
    requires AllSaved(list) && DistinctUuids(list)
    ensures var written := Upsert(list, envelopeUuid, signerEmail, now);
      written.Some? ==> AllSaved(written.value) && DistinctUuids(written.value)
  {
    UpsertWritesValid(list, envelopeUuid, signerEmail, now);
    var written := Upsert(list, envelopeUuid, signerEmail, now);
    if written.Some? {
      var w := written.value;
      match FindFirst(list, envelopeUuid)
      case Some(k) =>
        assert forall j | 0 <= j < |w| :: Uuid(w[j]) == Uuid(list[j]);
      case None =>
        forall i, j | 0 <= i < j < |w|
          ensures Uuid(w[i]) != Uuid(w[j])
        {
          if j == |list| {
            assert !HasUuid(list[i], envelopeUuid);
          }
        }
    }
  }

  /** Two saves of one uuid on a ledger without duplicates leave exactly one record with
      that uuid and no longer a list; when the second save gives an e-mail, that record
      carries it, and a second save without one writes nothing. */
  lemma SaveAgainKeepsOneRecord(list: seq<JsonValue>, envelopeUuid: string, first: Option<string>,
                                second: Option<string>, now: int, later: int)
    requires AllSaved(list) && DistinctUuids(list)
    requires Upsert(list, envelopeUuid, first, now).Some?
    ensures var once := Upsert(list, envelopeUuid, first, now).value;
      var twice := Upsert(once, envelopeUuid, second, later);
      && (twice.Some? <==> second.Some?)
      && (twice.Some? ==>
            && |twice.value| == |once|
            && FindFirst(twice.value, envelopeUuid).Some?
            && var k := FindFirst(twice.value, envelopeUuid).value;
               && twice.value[k].fields[SignerEmailKey] == JString(second.value)
               && forall j | 0 <= j < |twice.value| && j != k :: !HasUuid(twice.value[j], envelopeUuid))
  {
    var once := Upsert(list, envelopeUuid, first, now).value;
    UpsertWritesValid(list, envelopeUuid, first, now);
    UpsertKeepsDistinct(list, envelopeUuid, first, now);
    var k := FindFirst(once, envelopeUuid).value;
    if second.Some? {
      SaveKnownUpdatesEmail(once, k, envelopeUuid, second.value, later);
      UpsertWritesValid(once, envelopeUuid, second, later);
      UpsertKeepsDistinct(once, envelopeUuid, second, later);
      var twice := Upsert(once, envelopeUuid, second, later).value;
      assert FindFirst(twice, envelopeUuid) == Some(k) by {
        assert HasUuid(twice[k], envelopeUuid);
        assert forall j | 0 <= j < k :: twice[j] == once[j];
      }
    }
  }

  /** The storage entry after `saveEnvelope`: rewritten when `Upsert` produced a list,
      untouched otherwise. */
  function AfterSave(stored: Stored, envelopeUuid: string, signerEmail: Option<string>, now: int): (after: Stored)
    ensures after != stored ==> after.Json? && after.value.JArray? && AllSaved(after.value.elements)
    ensures signerEmail.Some? ==> after.Json? && after.value.JArray?
  {
    var list := LoadSavedEnvelopes(true, stored);
    UpsertWritesValid(list, envelopeUuid, signerEmail, now);
    match Upsert(list, envelopeUuid, signerEmail, now)
    case None => stored
    case Some(written) => Json(JArray(written))
  }

  /** The browser's local storage, holding the ledger's entry. */
  class BrowserStorage {
    var stored: Stored

    constructor (initial: Stored)
      ensures stored == initial
    {
      stored := initial;
    }

    /** `saveEnvelope(envelopeUuid, signerEmail)`, with `now` for `Date.now()`: the
        loaded list is updated in place or grown by one record, then written back. */
    method SaveEnvelope(envelopeUuid: string, signerEmail: Option<string>, now: int)
      modifies this
      ensures stored == AfterSave(old(stored), envelopeUuid, signerEmail, now)
      ensures var written := Upsert(LoadSavedEnvelopes(true, old(stored)), envelopeUuid, signerEmail, now);
        && (written.None? ==> stored == old(stored))
        && (written.Some? ==> stored == Json(JArray(written.value)))
      ensures stored != old(stored) ==> stored.Json? && stored.value.JArray? && AllSaved(stored.value.elements)
    {
      var list := LoadSavedEnvelopes(true, stored);
      ghost var loaded := list;
      UpsertWritesValid(loaded, envelopeUuid, signerEmail, now);
      var existing := FindFirst(list, envelopeUuid);
      if existing.Some? {
        if signerEmail.Some? {
          list := list[existing.value := WithSignerEmail(list[existing.value], signerEmail.value)];
          stored := Json(JArray(list));
        }
        return;
      }
      list := list + [NewRecord(envelopeUuid, signerEmail, now)];
      stored := Json(JArray(list));
    }

  }
}

=== FILE: subnoto_client.dfy ===
/** The configuration gate in front of every action: four mandatory environment
    variables, checked before any client exists. Building the SDK client is abstract;
    the model keeps the options it would be built with. */
module SubnotoClient {
  import opened Values

  /** The environment variables the demo reads, each named after its variable:
      `SUBNOTO_BASE_URL`, `SUBNOTO_ACCESS_KEY`, `SUBNOTO_SECRET_KEY`, `WORKSPACE_UUID`,
      `SUBNOTO_UNATTESTED` and `SUBNOTO_EMBED_BASE_URL`. */
  datatype EnvVar =
    | SubnotoBaseUrl | SubnotoAccessKey | SubnotoSecretKey | WorkspaceUuid
    | SubnotoUnattested | SubnotoEmbedBaseUrl

  /** The process environment, restricted to the variables above. */
  type Env = map<EnvVar, string>

  function Lookup(env: Env, name: EnvVar): Option<string>
  {
    if name in env then Some(env[name]) else None
  }

  const MissingEnvMessage: string :=
    "Missing env: SUBNOTO_BASE_URL, SUBNOTO_ACCESS_KEY, SUBNOTO_SECRET_KEY, WORKSPACE_UUID"

  /** The options the SDK client is constructed with. */
  datatype ClientOptions = ClientOptions(apiBaseUrl: string, accessKey: string, secretKey: string, unattested: bool)

  datatype Context = Context(client: ClientOptions, workspaceUuid: string, baseUrl: string)

  /** All four mandatory variables are set and non-empty. */
  predicate Configured(env: Env)
  {
    && Present(Lookup(env, SubnotoBaseUrl))
    && Present(Lookup(env, SubnotoAccessKey))
    && Present(Lookup(env, SubnotoSecretKey))
    && Present(Lookup(env, WorkspaceUuid))
  }

  function GetClientAndWorkspace(env: Env): (r: Result<Context>)
    ensures r.Err? <==> !Present(Lookup(env, SubnotoBaseUrl)) || !Present(Lookup(env, SubnotoAccessKey))
                        || !Present(Lookup(env, SubnotoSecretKey)) || !Present(Lookup(env, WorkspaceUuid))
    ensures r.Err? ==> r.error == MissingEnvMessage
    ensures r.Ok? ==> r.value.baseUrl == env[SubnotoBaseUrl] && r.value.workspaceUuid == env[WorkspaceUuid]
    ensures r.Ok? ==> r.value.client.apiBaseUrl == env[SubnotoBaseUrl]
                      && r.value.client.accessKey == env[SubnotoAccessKey]
                      && r.value.client.secretKey == env[SubnotoSecretKey]
    ensures r.Ok? ==> (r.value.client.unattested <==> Lookup(env, SubnotoUnattested) == Some("true"))
  {
    if !Configured(env) then Err(MissingEnvMessage)
    else
      var apiBaseUrl := env[SubnotoBaseUrl];
      var client := ClientOptions(apiBaseUrl, env[SubnotoAccessKey], env[SubnotoSecretKey],
                                  Lookup(env, SubnotoUnattested) == Some("true"));
      Ok(Context(client, env[WorkspaceUuid], apiBaseUrl))
  }

  /** Clearing any one mandatory variable makes the gate fail, whatever the others hold. */
  lemma {:induction false} MissingOneVariableFails(env: Env, name: EnvVar)
    requires name in {SubnotoBaseUrl, SubnotoAccessKey, SubnotoSecretKey, WorkspaceUuid}
    ensures GetClientAndWorkspace(env - {name}) == Err(MissingEnvMessage)
    ensures GetClientAndWorkspace(env[name := ""]) == Err(MissingEnvMessage)
  {
    assert Lookup(env - {name}, name) == None;
    assert Lookup(env[name := ""], name) == Some("");
  }
}

=== FILE: uuid.dfy ===
/** Shortening an envelope identifier for display. */
module Uuid {

  const DefaultLength: nat := 12

  /** U+2026 HORIZONTAL ELLIPSIS, a single character. */
  const Ellipsis: char := '\U{2026}'

  /** Identifiers no longer than `length` are shown whole; longer ones are cut to
      `length` characters and marked with an ellipsis. */
  function TruncateUuid(uuid: string, length: nat := DefaultLength): (r: string)
    ensures |uuid| <= length ==> r == uuid
    ensures |uuid| > length ==> |r| == length + 1 && r[..length] == uuid[..length] && r[length] == Ellipsis
    ensures |r| <= length + 1
  {
    if |uuid| <= length then uuid else uuid[..length] + [Ellipsis]
  }

  /** The result always begins with the first min(|uuid|, length) characters of the input. */
  lemma TruncateKeepsPrefix(uuid: string, length: nat)
    ensures var k := if |uuid| < length then |uuid| else length;
      var r := TruncateUuid(uuid, length);
      k <= |r| && r[..k] == uuid[..k]
  {
  }

  /** Truncating an already truncated identifier changes nothing. */
  lemma {:induction false} TruncateIdempotent(uuid: string, length: nat)
    ensures TruncateUuid(TruncateUuid(uuid, length), length) == TruncateUuid(uuid, length)
  {
    var r := TruncateUuid(uuid, length);
    if |uuid| > length {
      assert r[..length] + [Ellipsis] == r;
    }
  }
}

=== FILE: values.dfy ===
/** Values shared by the whole model: optional values, the `{ ... } | { error }` result
    shape of every action, and the few JavaScript string operations the source uses. */
module Values {

  datatype Option<+T> = None | Some(value: T)

  /** The `{ ...fields } | { error: string }` shape that every action resolves to. */
  datatype Result<+T> = Ok(value: T) | Err(error: string)

  /** JavaScript truthiness of a possibly-undefined string: `!s` holds for undefined and for "". */
  predicate Present(s: Option<string>)
  {
    s.Some? && s.value != ""
  }

  /** `s.startsWith(prefix)` */
  predicate StartsWith(s: string, prefix: string)
  {
    |prefix| <= |s| && s[..|prefix|] == prefix
  }

  /** `sub` occurs in `s` starting at position `i`. */
  predicate OccursAt(s: string, sub: string, i: int)
  {
    0 <= i && i + |sub| <= |s| && s[i..i + |sub|] == sub
  }

  /** `s.includes(sub)`, computed by scanning `s` from the left. */
  function Contains(s: string, sub: string): bool
    decreases |s|
  {
    if StartsWith(s, sub) then true
    else if |s| <= |sub| then false
    else Contains(s[1..], sub)
  }

  /** A slice of the tail is the slice of the whole one position further on. */
  lemma TailSlice(s: string, i: nat, m: nat)
    requires 1 <= i && i + m <= |s|
    ensures s[1..][i - 1..i - 1 + m] == s[i..i + m]
  {
  }

  /** `Contains` agrees with the positional definition of a substring. */
  lemma {:induction false} ContainsIff(s: string, sub: string)
    ensures Contains(s, sub) <==> exists i :: OccursAt(s, sub, i)
    decreases |s|
  {
    if StartsWith(s, sub) {
      assert OccursAt(s, sub, 0);
    } else if |s| <= |sub| {
      forall i
        ensures !OccursAt(s, sub, i)
      {
        if 0 <= i && i + |sub| <= |s| {
          assert i == 0 && s[0..|sub|] == s[..|sub|];
        }
      }
    } else {
      ContainsIff(s[1..], sub);
      if Contains(s, sub) {
        var j :| OccursAt(s[1..], sub, j);
        TailSlice(s, j + 1, |sub|);
        assert OccursAt(s, sub, j + 1);
      } else {
        forall i
          ensures !OccursAt(s, sub, i)
        {
          if i == 0 {
            assert s[0..|sub|] == s[..|sub|];
          } else if 0 < i && i + |sub| <= |s| {
            TailSlice(s, i, |sub|);
            assert !OccursAt(s[1..], sub, i - 1);
          }
        }
      }
    }
  }

  /** The ASCII-only case mapping used by a non-unicode `/…/i` regular expression:
      no character outside ASCII canonicalises onto an ASCII letter. */
  function LowerChar(c: char): char
  {
    if 'A' <= c <= 'Z' then (c as int + 32) as char else c
  }

  function LowerAscii(s: string): string
  {
    seq(|s|, i requires 0 <= i < |s| => LowerChar(s[i]))
  }

  /** The test `/pattern/i.test(s)` for a pattern made of lower-case ASCII letters and
      spaces: the pattern occurs somewhere in `s` once upper-case letters are lowered. */
  predicate ContainsIgnoringCase(s: string, lowerPattern: string): (found: bool)
    ensures found <==> exists i :: OccursAt(LowerAscii(s), lowerPattern, i)
  {
    ContainsIff(LowerAscii(s), lowerPattern);
    Contains(LowerAscii(s), lowerPattern)
  }

  /** Lowering twice is lowering once. */
  lemma LowerAsciiIdempotent(s: string)
    ensures LowerAscii(LowerAscii(s)) == LowerAscii(s)
  {
  }

  /** The test ignores case: a message and its lower-cased form match alike. */
  lemma ContainsIgnoringCaseIgnoresCase(s: string, lowerPattern: string)
    ensures ContainsIgnoringCase(LowerAscii(s), lowerPattern) == ContainsIgnoringCase(s, lowerPattern)
  {
    LowerAsciiIdempotent(s);
  }

  function DigitChar(d: nat): char
    requires d < 10
  {
    ('0' as int + d) as char
  }

  predicate IsDigits(s: string)
  {
    forall i :: 0 <= i < |s| ==> '0' <= s[i] <= '9'
  }

  /** `String(n)` for a non-negative integer: its decimal digits, most significant first. */
  function DecimalString(n: nat): (s: string)
    decreases n
  {
    if n < 10 then [DigitChar(n)] else DecimalString(n / 10) + [DigitChar(n % 10)]
  }

  /** Reads a digit string back into the number it denotes. */
  function DecimalValue(s: string): nat
    requires IsDigits(s)
  {
    if |s| == 0 then 0
    else DecimalValue(s[..|s| - 1]) * 10 + (s[|s| - 1] as int - '0' as int)
  }

  /** `String(n)` is a non-empty digit string that reads back as `n`. */
  lemma {:induction false} DecimalRoundTrip(n: nat)
    ensures |DecimalString(n)| > 0 && IsDigits(DecimalString(n))
    ensures DecimalValue(DecimalString(n)) == n
    decreases n
  {
    if n >= 10 {
      DecimalRoundTrip(n / 10);
      var s := DecimalString(n);
      assert s[..|s| - 1] == DecimalString(n / 10);
    }
  }

  /** Distinct numbers have distinct decimal strings. */
  lemma DecimalStringInjective(m: nat, n: nat)
    requires DecimalString(m) == DecimalString(n)
    ensures m == n
  {
    DecimalRoundTrip(m);
    DecimalRoundTrip(n);
  }
}

=== FILE: vendor.dfy ===
/** The vendor client as this model sees it: every remote call either throws or
    returns a `{ data, error }` response, and the actions only ever inspect those
    two fields. The SDK itself is not part of this model; its answers are oracle
    values passed into the actions, and the actions hand back the requests they made. */
module Vendor {
  import opened Values

  /** A value found in the `error` field of a response. */
  datatype ErrorValue =
      /** An object; `nestedMessage` is `error.error?.message`, `message` is `error.message`. */
    | ErrorObject(nestedMessage: Option<string>, message: Option<string>)
      /** A string, number or boolean; `text` is `String(value)`, `truthy` its JavaScript truthiness. */
    | Primitive(text: string, truthy: bool)

  /** `if (error)` for an `error` field that may be null or undefined (`None`). */
  predicate Truthy(error: Option<ErrorValue>)
  {
    error.Some? && (error.value.ErrorObject? || error.value.truthy)
  }

  /** The error-message normalisation every action repeats:
        error && typeof error === "object" ? (error.error?.message ?? error.message)
                                           : error != null ? String(error) : ifAbsent
      followed by `?? fallback`. The steps that only run it on a truthy error pass the
      same text for both. */
  function ErrorMessage(error: Option<ErrorValue>, ifAbsent: string, fallback: string): (msg: string)
    ensures error.None? ==> msg == ifAbsent
    ensures error.Some? && error.value.Primitive? ==> msg == error.value.text
    ensures error.Some? && error.value.ErrorObject? ==>
      msg == (if error.value.nestedMessage.Some? then error.value.nestedMessage.value
              else if error.value.message.Some? then error.value.message.value
              else fallback)
  {
    match error
    case None => ifAbsent
    case Some(Primitive(text, _)) => text
    case Some(ErrorObject(nested, outer)) =>
      if nested.Some? then nested.value else if outer.Some? then outer.value else fallback
  }

  /** A thrown value, as the `catch` blocks tell them apart. */
  datatype Exception =
      /** An instance of the SDK's `SubnotoError` (itself an `Error`). */
    | VendorError(message: string)
      /** Any other `Error`; `causeCode` is `err.cause.code` when the cause is an object with a code. */
    | PlainError(message: string, causeCode: Option<string>)
      /** A thrown value that is not an `Error`. */
    | NonError

  /** `err instanceof Error ? err.message : fallback`. */
  function ThrownMessage(err: Exception, fallback: string): (msg: string)
    ensures err.NonError? ==> msg == fallback
    ensures !err.NonError? ==> msg == err.message
  {
    if err.NonError? then fallback else err.message
  }

  /** The outcome of one awaited vendor call. */
  datatype Call<+T> = Threw(exception: Exception) | Returned(value: T)

  /** The `{ data, error }` object a `client.POST` resolves to. */
  datatype Response<+T> = Response(data: Option<T>, error: Option<ErrorValue>)

  /** A data-less step (add recipients, add blocks, send) succeeded: it returned and
      its `error` field is falsy. */
  predicate Passed<T>(c: Call<Response<T>>)
  {
    c.Returned? && !Truthy(c.value.error)
  }

  datatype Recipient = Recipient(kind: string, email: string, firstname: string, lastname: string)

  datatype Block = Block(kind: string, page: string, x: int, y: int, recipientEmail: string)

  /** A request made to the vendor, in the order the actions make them. File bytes are not modelled. */
  datatype Request =
    | Whoami
    | UploadDocument(workspaceUuid: string, envelopeTitle: string)
    | CreateFromFile(workspaceUuid: string, envelopeTitle: string, detectSmartAnchors: string)
    | AddRecipients(workspaceUuid: string, envelopeUuid: string, recipients: seq<Recipient>)
    | AddBlocks(workspaceUuid: string, envelopeUuid: string, documentUuid: string, blocks: seq<Block>)
    | Send(workspaceUuid: string, envelopeUuid: string, distributionMethod: string)
    | CreateIframeToken(workspaceUuid: string, envelopeUuid: string, signerEmail: string)
    | GetEnvelope(workspaceUuid: string, envelopeUuid: string)
}

=== FILE: whoami.dfy ===
/** Account identity: the `whoami` call and the owner e-mail every demo uses as signer. */
module Whoami {
  import opened Values
  import opened Vendor
  import opened SubnotoClient

  /** The fields of a successful `whoami` response. */
  datatype WhoamiData = WhoamiData(teamUuid: string, teamName: string, ownerEmail: string, ownerUuid: string, accessKey: string)

  datatype WhoamiInfo = WhoamiInfo(apiBaseUrl: string, teamUuid: string, teamName: string,
                                   ownerEmail: string, ownerUuid: string, accessKey: string)

  const WhoamiFailed: string := "Failed to get whoami"
  const EnvironmentInfoFailed: string := "Failed to get environment info"

  /** `getWhoami`, given what the `whoami` call did (it is only made once the
      configuration gate has passed). */
  function GetWhoami(env: Env, reply: Call<Response<WhoamiData>>): (r: Result<WhoamiInfo>)
    ensures GetClientAndWorkspace(env).Err? ==> r == Err(MissingEnvMessage)
    ensures r.Ok? <==> Configured(env) && reply.Returned? && !Truthy(reply.value.error) && reply.value.data.Some?
    ensures r.Ok? ==>
      var d := reply.value.data.value;
      r.value == WhoamiInfo(env[SubnotoBaseUrl], d.teamUuid, d.teamName, d.ownerEmail, d.ownerUuid, d.accessKey)
    ensures Configured(env) && reply.Threw? ==> r == Err(ThrownMessage(reply.exception, EnvironmentInfoFailed))
    ensures Configured(env) && reply.Returned? && (Truthy(reply.value.error) || reply.value.data.None?) ==>
      r == Err(ErrorMessage(reply.value.error, WhoamiFailed, WhoamiFailed))
  {
    match GetClientAndWorkspace(env)
    case Err(e) => Err(e)
    case Ok(ctx) =>
      match reply
      case Threw(ex) => Err(ThrownMessage(ex, EnvironmentInfoFailed))
      case Returned(Response(data, error)) =>
        if Truthy(error) || data.None? then Err(ErrorMessage(error, WhoamiFailed, WhoamiFailed))
        else
          var d := data.value;
          Ok(WhoamiInfo(ctx.baseUrl, d.teamUuid, d.teamName, d.ownerEmail, d.ownerUuid, d.accessKey))
  }

  /** `getOwnerEmail`: the whoami error unchanged, or the owner's e-mail. */
  function GetOwnerEmail(env: Env, reply: Call<Response<WhoamiData>>): (r: Result<string>)
    ensures GetWhoami(env, reply).Err? ==> r == Err(GetWhoami(env, reply).error)
    ensures GetWhoami(env, reply).Ok? ==> r == Ok(GetWhoami(env, reply).value.ownerEmail)
  {
    match GetWhoami(env, reply)
    case Err(e) => Err(e)
    case Ok(info) => Ok(info.ownerEmail)
  }

  /** When the configuration is missing, the answer does not depend on the call at all:
      the call is never made. */
  lemma WhoamiIgnoresCallWithoutConfig(env: Env, r1: Call<Response<WhoamiData>>, r2: Call<Response<WhoamiData>>)
    requires !Configured(env)
    ensures GetWhoami(env, r1) == GetWhoami(env, r2)
    ensures GetOwnerEmail(env, r1) == GetOwnerEmail(env, r2)
  {
  }

  /** A successful owner lookup yields exactly the `ownerEmail` the vendor reported. */
  lemma OwnerEmailFromResponse(env: Env, reply: Call<Response<WhoamiData>>)
    requires GetOwnerEmail(env, reply).Ok?
    ensures reply.Returned? && reply.value.data.Some?
    ensures GetOwnerEmail(env, reply).value == reply.value.data.value.ownerEmail
  {
  }
}
